=== FILE: README.md ===
# qr-shopper-server product detail store, modelled in Dafny

This project models the core of the product detail store in qr-shopper-server. The store is a small HTTP service that answers `GET /products/{barcode}` for requests signed with HMAC. The model covers six parts:

- **The HMAC authorizer middleware** (`HMACAuthorizer`). It admits a request only when four things hold:
  - the `Authorization-Time` header is a decimal timestamp no more than 300 seconds from the server clock;
  - the `Authorization-User` header names a user with a stored password;
  - the `Authorization` header is `HMAC ` followed by the base64 HMAC-SHA-256 of a three-line canonical message;
  - that HMAC is keyed by the user's password.

  Any other request is rejected with 401 `{"error": "Unauthorized"}`, or fails with an exception raised while it is examined. Neither reaches the route.
- **The `ServiceFactory`**:
  - its dotted-path configuration lookup `_get_config`;
  - the choice between the mocked product and user repositories;
  - the `lru_cache` memo of the product repository;
  - the module-level current-instance registry (`get_instance` / `set_instance`).
- **The in-memory user repository**: the password lookup `records.get(user, {}).get("password")`.
- **The in-memory product repository**: products filed by id.
- **The `GET /products/{barcode}` endpoint**: through the registered factory's product repository, the stored product, or an `HTTPException` 404 naming the barcode.
- **The exception handler**: it turns an `HTTPException` into the `{"code", "errors": {"location", "message"}, "message"}` envelope.

Configuration and stored records are modelled as dynamic Python values (`Values.Value`, with Python truthiness). This keeps the error paths of the code in the model:

- `.get` on something that is not a dictionary raises `AttributeError`.
- `.encode` on a password that is not a string raises `AttributeError`.
- `get_instance()` before any factory is registered raises.
- `int()` on a time of more than 4300 digits raises `ValueError`.
- Subtracting a time of `2^1024 - 2^970` or more from the floating-point clock raises `OverflowError`.

Each of these is a `Failure` of the `Common.Result` type.

Three behaviours the model makes explicit and proves:

- **The `mocked` flags cannot be switched off.** `_get_config` returns `d or default`, and `d or True` is never falsy. So a configured `"mocked": False` still selects the in-memory repositories. `ServiceFactory.ProductRepositoryMocked` states this.
- **An unknown user returns early.** The authorizer rejects an unknown or passwordless user before any signature is computed (`hmac_authorizer.py:34-35`).
- **The canonical message is unambiguous** over what the service signs: a method without spaces, a numeric time, and a user without a newline. Any two such requests that share a message share every signed field, even when paths contain spaces or newlines.

The clock, HMAC-SHA-256 and base64 are parameters:

- `now` is passed in as a whole number of seconds.
- The two primitives are function-valued fields of `HmacAuthorizer.Crypto`.
- The credential store reaches the authorizer as a resolver function. `HmacAuthorizer.Resolver` builds the one the service installs, from the registered factory's configuration.

`Service` composes the middleware, the route and the exception handler. It states the scenario of the service's endpoint test: the configuration the test registers, the request its `sign_request` signs, and the responses it expects.

## Model

| member | source | states |
|---|---|---|
| Values.Or | src/product_detail_store/service_factory.py:37 | `d or default` is truthy exactly when one of them is; it is `d` when `d` is truthy and otherwise `default` |
| Values.DictGet | src/product_detail_store/service_factory.py:35 | `d.get(key, default)` gives the stored value or the default on a dictionary, and raises `AttributeError` on anything else |
| Config.Walk | src/product_detail_store/service_factory.py:32-35 | the segment walk agrees with strict descent: found gives the value, a missing key at any depth gives `{}`, and a non-dictionary on the way raises `AttributeError` |
| Config.GetConfig | src/product_detail_store/service_factory.py:31-37 | a truthy default can never be overridden by a falsy configured value; the result is either the default or truthy |
| Config.GetConfigSpec | src/product_detail_store/service_factory.py:31-37 | the full case split of `_get_config`: a truthy configured value is returned, a falsy or missing one yields the default, and a non-dictionary on the path raises |
| Strings.JoinSplit | src/product_detail_store/service_factory.py:34 | joining the parts of `path.split(".")` with `.` gives back the path |
| Strings.SplitJoin | src/product_detail_store/service_factory.py:34 | splitting a `.`-join of dot-free segments gives back exactly those segments |
| Strings.ParseDecimalString | src/product_detail_store/fastapi/middlewares/hmac_authorizer.py:55-59 | `int(str(t))` is `t` for every non-negative time a client writes with `str` |
| Strings.UpperProperties | src/product_detail_store/fastapi/middlewares/hmac_authorizer.py:38 | `upper()` leaves no lower-case letter, is idempotent, and keeps a string without lower-case letters unchanged |
| ServiceFactory.PathSegments | src/product_detail_store/service_factory.py:22-28 | the three configuration paths split into their three keys |
| ServiceFactory.ProductRepositoryMocked | src/product_detail_store/service_factory.py:20-23 | the product repository is always the in-memory one, and the lookup raises exactly when a non-dictionary sits on the path to `mocked` |
| ServiceFactory.GetUsersRepository | src/product_detail_store/service_factory.py:25-29 | a users repository is always built; it holds the configured records when they are truthy and `{}` otherwise; it raises `AttributeError` exactly when the path to `records` runs into a non-dictionary |
| ServiceFactory.Factory.GetProductRepository | src/product_detail_store/service_factory.py:20-23 | the first successful call builds a fresh empty repository and caches it; later calls return the same object; a call raises exactly when the flag lookup raises, and then caches nothing |
| ServiceFactory.Registration | src/product_detail_store/service_factory.py:10-18 | before any factory is constructed `get_instance()` raises; constructing one registers it with its configuration and an empty memo |
| ServiceFactory.Registry.GetInstance | src/product_detail_store/service_factory.py:44-51 | raises the not-initialised error exactly when no factory was registered, and otherwise returns the registered one |
| ServiceFactory.Registry.SetInstance | src/product_detail_store/service_factory.py:54-56 | the given factory becomes the current instance |
| ServiceFactory.MemoisedRepositoryShared | src/product_detail_store/service_factory.py:14-23 | constructing a factory registers it, and two fetches of its product repository give the same object |
| UserRepository.GetPasswordForUser | src/product_detail_store/repositories/in_memory/inmemory_user_repository.py:8-9 | the password is what strict two-key descent finds; it is `None` for an unknown user or a record without a password; `AttributeError` is raised when the records or the user's record are not a dictionary |
| UserRepository.PasswordCases | src/product_detail_store/repositories/in_memory/inmemory_user_repository.py:8-9 | for a dictionary of records: a stored password is returned, and an unknown user or a record without a password gives `None` |
| ProductRepository.Get | src/product_detail_store/repositories/in_memory/inmemory_product_repository.py:14-15 | a product is found exactly when its barcode is filed, and it is the filed product |
| ProductRepository.InMemoryProductRepository.AddProduct | src/product_detail_store/repositories/in_memory/inmemory_product_repository.py:11-12 | afterwards the product is found under its id and every other barcode finds what it found before |
| ProductRepository.InMemoryProductRepository.GetByBarcode | src/product_detail_store/repositories/in_memory/inmemory_product_repository.py:14-15 | the object's dictionary is read, not changed: the filed product, or `None` exactly when the barcode is not filed |
| ProductRepository.Add | src/product_detail_store/repositories/in_memory/inmemory_product_repository.py:11-12 | the added product is found under its id, every other barcode is unchanged, and filing products by id is preserved |
| ProductRepository.EmptyStore | src/product_detail_store/repositories/in_memory/inmemory_product_repository.py:8-9 | a new repository holds nothing |
| ProductRepository.KeyedLookup | src/product_detail_store/repositories/in_memory/inmemory_product_repository.py:11-15 | a product found under a barcode has that barcode as its id |
| ProductRepository.InMemoryProductRepository.Clear | src/product_detail_store/repositories/in_memory/inmemory_product_repository.py:17-18 | after `clear` no barcode finds a product |
| HmacAuthorizer.HasExpired | src/product_detail_store/fastapi/middlewares/hmac_authorizer.py:51-59 | a missing, empty or non-numeric time has expired; a numeric one raises `ValueError` past 4300 digits and `OverflowError` from `2^1024 - 2^970` on, and otherwise (leading zeros included) succeeds, having expired exactly when it is more than 300 seconds from the clock; no other exception is raised |
| HmacAuthorizer.GetPassword | src/product_detail_store/fastapi/middlewares/hmac_authorizer.py:67-70 | with no registered factory the lookup raises; otherwise the password is the strict lookup of the user and `password` in the configured records (or `{}`), `None` when absent, and never the `AttributeError` of a missing repository |
| HmacAuthorizer.CanonicalMessage | src/product_detail_store/fastapi/middlewares/hmac_authorizer.py:37-41 | the message is the newline join of three lines: upper-cased method and path, the time line, the user line |
| HmacAuthorizer.HmacSignatureInvalid | src/product_detail_store/fastapi/middlewares/hmac_authorizer.py:28-49 | the time is checked first and an exception or rejection there decides; with a fresh time and a named user, a raising password lookup propagates its exception and a password that is neither a string nor `None` raises `AttributeError`; an admitted request has a convertible numeric time within 300 seconds, a non-empty user with a string password, and exactly the HMAC of its canonical message under that password |
| HmacAuthorizer.GetCredentials | src/product_detail_store/fastapi/middlewares/hmac_authorizer.py:61-65 | a missing or empty user gives `(None, None)` without any lookup; otherwise the user with the resolved password, or the resolver's exception |
| HmacAuthorizer.Dispatch | src/product_detail_store/fastapi/middlewares/hmac_authorizer.py:19-26 | a rejected request gets the 401 response, an admitted one the downstream result unchanged, and an exception raised while judging the request propagates |
| HmacProperties.TimeHeaderRejections | src/product_detail_store/fastapi/middlewares/hmac_authorizer.py:28-59 | a missing, empty, non-numeric or out-of-tolerance time rejects the request whatever the user store and the signature; an over-long or over-large numeric time raises `ValueError` or `OverflowError` out of the middleware |
| HmacProperties.IssuedTimeExpiry | src/product_detail_store/fastapi/middlewares/hmac_authorizer.py:51-59 | a time written as `str(t)` below the double range is expired exactly when it is more than 300 seconds from the clock, ±300 passes and +301 fails; from the double range on the freshness test raises |
| HmacProperties.UnknownUserRejected | src/product_detail_store/fastapi/middlewares/hmac_authorizer.py:33-35 | with a fresh time, a missing or empty user, or a user without a password, is rejected identically under any HMAC and base64 |
| HmacProperties.CanonicalMessageLines | src/product_detail_store/fastapi/middlewares/hmac_authorizer.py:37-41 | when no field holds a newline, the message is exactly three lines: method and path, then the time line, then the user line |
| HmacProperties.MessageBindsMethod | src/product_detail_store/fastapi/middlewares/hmac_authorizer.py:37-41 | with the other fields fixed, two messages agree exactly when the upper-cased methods agree |
| HmacProperties.MessageBindsPath | src/product_detail_store/fastapi/middlewares/hmac_authorizer.py:37-41 | with the other fields fixed, two messages agree exactly when the paths agree |
| HmacProperties.MessageBindsTime | src/product_detail_store/fastapi/middlewares/hmac_authorizer.py:37-41 | with the other fields fixed, two messages agree exactly when the times agree |
| HmacProperties.MessageBindsUser | src/product_detail_store/fastapi/middlewares/hmac_authorizer.py:37-41 | with the other fields fixed, two messages agree exactly when the users agree |
| HmacProperties.CanonicalMessageInjective | src/product_detail_store/fastapi/middlewares/hmac_authorizer.py:37-41 | over space-free methods, numeric times and newline-free users, equal messages mean equal method, path, time and user |
| HmacProperties.SignedRequestRoundTrip | src/product_detail_store/fastapi/middlewares/hmac_authorizer.py:42-49 | a request signed by a client with the user's stored password is admitted exactly when the clock is within 300 seconds of its time (below the double range; beyond it the freshness test raises); any other `Authorization` value is never admitted |
| HmacProperties.SignatureDecides | src/product_detail_store/fastapi/middlewares/hmac_authorizer.py:37-49 | with a fresh time and a known user with a string password, the request is admitted exactly when its `Authorization` header is `HMAC ` followed by the signature of its canonical message under that password |
| HmacProperties.RejectedNeverForwarded | src/product_detail_store/fastapi/middlewares/hmac_authorizer.py:19-24 | a rejected request gets 401 `{"error": "Unauthorized"}` whichever downstream handler is installed |
| Products.FindProduct | src/product_detail_store/fastapi/endpoints/products.py:13-20 | the product is returned exactly when its barcode is stored; otherwise the result is `HTTPException` 404 with the detail naming the barcode |
| Products.GetProduct | src/product_detail_store/fastapi/endpoints/products.py:10-20 | with no registered factory the endpoint raises; a non-dictionary on the path to `repositories.products.mocked` raises `AttributeError`; otherwise it is the lookup in the factory's product repository |
| Products.Endpoint | src/product_detail_store/fastapi/endpoints/products.py:10-20 | through the registry, the factory and its memoised repository object, the endpoint gives what `GetProduct` gives for that factory's configuration and that repository's contents, and leaves the factory's memo invariant intact so that further requests are served the same way |
| Products.ServeTwice | src/product_detail_store/fastapi/endpoints/products.py:10-20 | two requests in a row against one registered factory are both answered from the same memoised repository, and the factory stays ready for the next |
| Products.AddThenGet | src/product_detail_store/fastapi/endpoints/products.py:12-20 | a product added to the repository is served back by its id, and every other barcode is served as before |
| Products.EmptyServesNothing | src/product_detail_store/fastapi/endpoints/products.py:13-18 | a fresh or cleared repository answers every barcode with the 404 |
| Products.NotFoundDetailInjective | src/product_detail_store/fastapi/endpoints/products.py:17 | different barcodes give different 404 details |
| ExceptionHandler.HandleException | src/product_detail_store/fastapi/exception_handler.py:6-17 | the response has the exception's status, and a client reads back the code, the request path as location, and the detail as message |
| ExceptionHandler.HandleExceptionInjective | src/product_detail_store/fastapi/exception_handler.py:6-17 | two handled exceptions produce the same response exactly when path, status and detail agree |
| Service.RouteAnswers | src/product_detail_store/fastapi/endpoints/products.py:9-20 | with a registered factory whose repository can be fetched, the route answers a stored barcode with 200 and the product and an unknown one with the handler's 404 envelope; otherwise the factory's exception escapes the handler |
| Service.TestUsersRepository | test/test_product_detail_store/endpoints/test_products.py:46-64 | the test configuration selects a users repository holding the test's records |
| Service.TestProductsRepository | test/test_product_detail_store/endpoints/test_products.py:46-65 | the test configuration selects the in-memory product repository |
| Service.TestUserPassword | src/product_detail_store/fastapi/middlewares/hmac_authorizer.py:67-70 | through the registered factory, `test-user` resolves to the password `mock` |
| Service.TestRequestIsSigned | test/test_product_detail_store/endpoints/test_products.py:121-132 | the test's hand-written signer produces the same headers as a client signing `GET /products/{barcode}` with the canonical message |
| Service.TestRequestJudged | src/product_detail_store/fastapi/middlewares/hmac_authorizer.py:28-59 | the test's signed request is rejected exactly when its time is more than 300 seconds from the clock, and raises for a time past the double range |
| Service.TestGetProduct | test/test_product_detail_store/endpoints/test_products.py:93-108 | a fresh signed request gets 200 with the product's JSON when the barcode is stored, and otherwise exactly the 404 envelope the test expects; a time past the double range makes the middleware raise |
| HmacProperties.UnsignedRejected | src/product_detail_store/fastapi/middlewares/hmac_authorizer.py:28-49 | a request without an `Authorization` header is never admitted, and is rejected whenever its time converts and its user's lookup yields a string password or none |
| Service.UnsignedTestRequestRejected | src/product_detail_store/fastapi/middlewares/hmac_authorizer.py:49 | without its `Authorization` header the test's request is rejected at any clock, for a time below the double range |
| Service.TestUnauthorized | src/product_detail_store/fastapi/middlewares/hmac_authorizer.py:19-24 | below the double range, an unsigned request, or a signed one more than 300 seconds old, gets 401 and never reaches the route |

## Left out

- HMAC-SHA-256 and base64: they are abstract function values. Only their use is modelled, not their definitions or their collision resistance.
- Constant-time comparison: timing is not modelled. The `!=` comparison of the `Authorization` header is a plain string comparison.
- HmacAuthorizer.HasExpired: `isnumeric` is modelled as non-empty ASCII digits. Python also accepts other Unicode numeric characters. `int` converts some of them (other scripts' decimal digits) and raises `ValueError` on the rest (such as `²`); neither is modelled.
- HmacAuthorizer.CanonicalMessage: `upper()` is modelled for ASCII letters only, with no Unicode case mapping.
- HmacAuthorizer.HasExpired: the clock is a whole number of seconds, and the subtraction is exact. `_has_expired` subtracts in double precision from a fractional timestamp. For times below `2^53` the model's answer is that of `_has_expired` at a clock reading of exactly `now` seconds, so the two can differ when the clock is a fraction of a second past the 300-second boundary. A time of `2^53` or more, but below the overflow limit, is rounded when `_has_expired` converts it to a double. Against any clock below `2^52` seconds it is then still more than 300 seconds away, so the answer does not change.
- Service.ProductJson: a product's `price` is a `real`, with no binary floating point and no JSON number formatting.
- Header names are matched exactly as written. Starlette's case-insensitive header lookup is not modelled.
- Starlette and FastAPI plumbing is not modelled:
  - `async`/`await`;
  - the middleware stack;
  - route matching and the framework's own 404/405 responses;
  - router discovery in `api.py`;
  - the JSON serialisation of responses.
- The `api.py` module-level default factory and the `get_exception_handler` memo are not modelled. The exception handler is stateless, so the memo cannot change a response.
- `lru_cache` is modelled as a per-factory memo field. Its global, argument-keyed table and its eviction policy are not modelled.
- The unused `auth` block of the test configuration is carried but never read, as in `ServiceFactory`.
- The endpoint test's server set-up (uvicorn in a thread, HTTP client, random barcodes and prices) is not modelled. Its scenario is stated for all barcodes, prices and times instead.

=== FILE: common.dfy ===
/** Failure-compatible wrappers shared by every module of the model, and the
    exceptions the modelled Python code can raise. */
module Common {

  /** Python's `Optional[T]`: `None` or a present value. */
  datatype Option<+T> = None | Some(value: T)

  /** The outcome of a Python call: a returned value, or an exception raised. */
  datatype Result<+R> = Success(value: R) | Failure(error: Raised) {

    predicate IsFailure() {
      Failure?
    }

    function PropagateFailure<U>(): Result<U>
      requires Failure?
    {
      Failure(error)
    }

    function Extract(): R
      requires Success?
    {
      value
    }
  }

  /** The exceptions raised along the modelled paths. */
  datatype Raised =
    | /** `x.attribute` on a value whose type has no such attribute (`True.get`, `5.encode`). */
      AttributeError(attribute: string)
    | /** `service_factory.get_instance()` before any factory was registered. */
      NotInitialized
    | /** `int(s)` on a string of more digits than Python's conversion limit. */
      ValueError
    | /** A float operation on an integer too large to convert to a double. */
      OverflowError
    | /** FastAPI's `HTTPException(status_code, detail)`. */
      HttpException(statusCode: int, detail: string)
}

=== FILE: config.dfy ===
/** `ServiceFactory._get_config` (src/product_detail_store/service_factory.py):
    walk a dotted path through nested configuration dictionaries, one
    segment at a time, turning every missing key into `{}`, and fall back
    to the default when the value reached is falsy. */
module Config {
  import opened Common
  import opened Values
  import opened Strings

  /** The loop of `_get_config`: `d = d.get(segment, {})` for each segment.
      It agrees with the strict descent: the value found at the end, `{}`
      once a key has gone missing (the walk then stays on `{}`), and
      `AttributeError` when it must call `get` on a value that is not a
      dictionary. */
  function Walk(d: Value, segments: seq<string>): (r: Result<Value>)
    ensures Descend(d, segments).Found? ==> r == Success(Descend(d, segments).v)
    ensures Descend(d, segments).Missing? ==> r == Success(EmptyDict)
    ensures Descend(d, segments).NotADict? ==> r == Failure(AttributeError("get"))
    decreases |segments|
  {
    if |segments| == 0 then Success(d)
    else
      var next :- DictGet(d, segments[0], EmptyDict);
      Walk(next, segments[1..])
  }

  /** `_get_config(path, default)` on the factory's configuration. Whatever
      the configuration holds, a truthy default can only be replaced by
      another truthy value. */
  function GetConfig(config: Value, path: string, default: Value): (r: Result<Value>)
    ensures r.Success? && Truthy(default) ==> Truthy(r.value)
    ensures r.Success? ==> r.value == default || Truthy(r.value)
  {
    var d :- Walk(config, Split(path, '.'));
    Success(Or(d, default))
  }

  /** `_get_config` in terms of the strict descent along the dot-separated
      segments of `path`: a truthy value found is returned; a falsy value
      found, or a missing segment at any depth, yields the default; a
      non-dictionary on the way raises. */
  lemma GetConfigSpec(config: Value, path: string, default: Value)
    ensures var l := Descend(config, Split(path, '.'));
      && (l.Found? && Truthy(l.v) ==> GetConfig(config, path, default) == Success(l.v))
      && (l.Found? && !Truthy(l.v) ==> GetConfig(config, path, default) == Success(default))
      && (l.Missing? ==> GetConfig(config, path, default) == Success(default))
      && (l.NotADict? ==> GetConfig(config, path, default) == Failure(AttributeError("get")))
  {
  }
}

=== FILE: exception_handler.dfy ===
/** `ExceptionHandler.handle_exception`
    (src/product_detail_store/fastapi/exception_handler.py): turns an
    `HTTPException` into the service's uniform JSON error envelope
    `{"code": status, "errors": {"location": path, "message": detail},
    "message": detail}`. */
module ExceptionHandler {
  import opened Common
  import opened Values
  import opened Http

  /** `handle_exception(request, exc)`, given the request path. It is
      registered for `HTTPException` only. */
  function HandleException(path: string, exc: Raised): (r: Response)
    requires exc.HttpException?
    ensures r.status == exc.statusCode
    ensures ReadEnvelope(r.body) == Some(Envelope(exc.statusCode, path, exc.detail))
  {
    Response(exc.statusCode, Dict(map[
      "code" := Int(exc.statusCode),
      "errors" := Dict(map[
        "location" := Str(path),
        "message" := Str(exc.detail)]),
      "message" := Str(exc.detail)]))
  }

  /** What a client reads out of an error envelope. */
  datatype Envelope = Envelope(code: int, location: string, message: string)

  /** Reads an error envelope back, as a client of the service would: the
      integer `code`, the string `errors.location`, and the string
      `errors.message`, which must agree with the top-level `message`.
      Anything else is not an envelope. */
  function ReadEnvelope(body: Value): Option<Envelope> {
    if !body.Dict? then None
    else
      var top := body.entries;
      if top.Keys != {"code", "errors", "message"} then None
      else if !top["code"].Int? || !top["errors"].Dict? || !top["message"].Str? then None
      else
        var errors := top["errors"].entries;
        if errors.Keys != {"location", "message"} then None
        else if !errors["location"].Str? || errors["message"] != top["message"] then None
        else Some(Envelope(top["code"].i, errors["location"].s, top["message"].s))
  }

  /** The envelope is determined by what is read back from it: two handled
      exceptions produce the same response exactly when they agree on
      status, path and detail. */
  lemma HandleExceptionInjective(path1: string, exc1: Raised, path2: string, exc2: Raised)
    requires exc1.HttpException? && exc2.HttpException?
    ensures (HandleException(path1, exc1) == HandleException(path2, exc2))
              <==> (path1 == path2 && exc1 == exc2)
  {
    if HandleException(path1, exc1) == HandleException(path2, exc2) {
      assert ReadEnvelope(HandleException(path1, exc1).body) == ReadEnvelope(HandleException(path2, exc2).body);
    }
  }
}

=== FILE: hmac_authorizer.dfy ===
/** `HMACAuthorizer` (src/product_detail_store/fastapi/middlewares/hmac_authorizer.py):
    the middleware that admits a request only when it carries a fresh
    timestamp, a known user, and the HMAC-SHA-256 signature of a canonical
    three-line message keyed by that user's password. */
module HmacAuthorizer {
  import opened Common
  import opened Values
  import opened Strings
  import opened Http
  import opened UserRepository
  import opened ServiceFactory

  const TimeHeader: string := "Authorization-Time"
  const UserHeader: string := "Authorization-User"
  const AuthorizationHeader: string := "Authorization"

  /** The largest accepted distance, in seconds, between the claimed signing
      time and the server clock. */
  const Tolerance: int := 300

  type Digest = seq<bv8>

  /** The two primitives the authorizer calls and the model leaves abstract:
      `hmacSha256(key, msg)` is HMAC (RFC 2104) with SHA-256 over the UTF-8
      bytes of both strings, and `b64encode` is the base64 encoding of section
      4 of RFC 4648, decoded back to a string. */
  datatype Crypto = Crypto(hmacSha256: (string, string) -> Digest, b64encode: Digest -> string)

  /** `base64.b64encode(hmac.digest(password, msg, "sha-256")).decode()`. */
  function Signature(crypto: Crypto, password: string, msg: string): string {
    crypto.b64encode(crypto.hmacSha256(password, msg))
  }

  /** The `Authorization` header value that carries a signature. */
  function AuthorizationValue(signature: string): string {
    "HMAC " + signature
  }

  function Abs(x: int): nat {
    if x < 0 then -x else x
  }

  // ---------------------------------------------------------------------------
  // The decision
  // ---------------------------------------------------------------------------

  /** Python's default limit on the number of digits `int()` converts from a
      string (`sys.get_int_max_str_digits()`); a longer digit string raises
      `ValueError`, leading zeros included. */
  const MaxIntDigits: nat := 4300

  /** A double is below `2^MaxExponent`; its 53-bit significand makes the
      largest one `2^1024 - 2^971`. */
  const MaxExponent: nat := 1024

  /** The smallest integer that no longer converts to a double:
      `2^1024 - 2^970` lies halfway between the largest double and `2^1024`
      and rounds up, so `now - int(auth_time)` raises `OverflowError` from
      this value on. */
  const FloatLimit: int := Pow2(MaxExponent) - Pow2(MaxExponent - 54)

  /** `_has_expired(auth_time)`, with the wall clock `now` (in whole seconds)
      passed in. A missing, empty or non-numeric time has expired. A numeric
      one is converted with `int` and subtracted from the floating-point
      clock, and either step raises for a long enough digit string. */
  function HasExpired(authTime: Option<string>, now: int): (r: Result<bool>)
    ensures authTime.None? || !IsNumeric(authTime.value) ==> r == Success(true)
    ensures authTime.Some? && IsNumeric(authTime.value) ==>
              && (r == Failure(ValueError) <==> |authTime.value| > MaxIntDigits)
              && (r == Failure(OverflowError) <==>
                    |authTime.value| <= MaxIntDigits && ParseDecimal(authTime.value) >= FloatLimit)
              && (r.Success? ==> r.value == (Abs(now - ParseDecimal(authTime.value)) > Tolerance))
    ensures authTime.Some? && IsNumeric(authTime.value) && |authTime.value| <= MaxIntDigits
            && ParseDecimal(authTime.value) < FloatLimit ==>
              r == Success(Abs(now - ParseDecimal(authTime.value)) > Tolerance)
    ensures r.Failure? ==> r.error == ValueError || r.error == OverflowError
  {
    match authTime
    case None => Success(true)
    case Some(s) =>
      if |s| == 0 || !IsNumeric(s) then Success(true)
      else if |s| > MaxIntDigits then Failure(ValueError)
      else if ParseDecimal(s) >= FloatLimit then Failure(OverflowError)
      else Success(Abs(now - ParseDecimal(s)) > Tolerance)
  }

  /** `_get_password(user)`: `get_instance().get_users_repository()
      .get_password_for_user(user)`. `instance` is the configuration of the
      registered factory, `None` when no factory has been registered.
      Calling the lookup on the `None` that `get_users_repository` would
      return for a falsy flag raises `AttributeError`; that never happens,
      because the flag cannot be falsy. The password is the strict lookup of
      `repositories.users.records`, then the user, then `password`, with the
      records falling back to `{}` when they are missing or falsy. The
      authorizer is given this resolver as a function, so that the decision
      can also be read against any other credential store. */
  function GetPassword(instance: Option<Value>, user: string): (r: Result<Value>)
    ensures instance.None? <==> r == Failure(NotInitialized)
    ensures r != Failure(AttributeError("get_password_for_user"))
    ensures instance.Some? ==>
              var l := Descend(instance.value, ["repositories", "users", "records"]);
              var records := if l.Found? && Truthy(l.v) then l.v else EmptyDict;
              && (l.NotADict? ==> r == Failure(AttributeError("get")))
              && (!l.NotADict? ==>
                    match Descend(records, [user, "password"])
                    case Found(pw) => r == Success(pw)
                    case Missing => r == Success(Null)
                    case NotADict => r == Failure(AttributeError("get")))
  {
    match instance
    case None => Failure(NotInitialized)
    case Some(config) =>
      var repo :- GetUsersRepository(config);
      match repo
      case None => Failure(AttributeError("get_password_for_user"))
      case Some(users) => GetPasswordForUser(users, user)
  }

  /** The credential resolver the service installs: passwords from the
      registered factory's users repository. */
  function Resolver(instance: Option<Value>): string -> Result<Value> {
    user => GetPassword(instance, user)
  }

  /** What `_get_credentials` returns: the user (`None` for a missing or empty
      header) and the password (`Null` for Python's `None`). */
  datatype Credentials = Credentials(user: Option<string>, password: Value)

  /** `_get_credentials(auth_user)`: no lookup at all for a missing or empty
      user name. */
  function GetCredentials(authUser: Option<string>, resolve: string -> Result<Value>): (r: Result<Credentials>)
    ensures authUser.None? || authUser == Some("") ==> r == Success(Credentials(None, Null))
    ensures authUser.Some? && authUser != Some("") ==>
              match resolve(authUser.value)
              case Success(pw) => r == Success(Credentials(authUser, pw))
              case Failure(e) => r == Failure(e)
  {
    if authUser.None? || |authUser.value| == 0 then Success(Credentials(None, Null))
    else
      var password :- resolve(authUser.value);
      Success(Credentials(Some(authUser.value), password))
  }

  const TimeLabel: string := "Authorization-Time: "
  const UserLabel: string := "Authorization-User: "

  /** The signed message: the upper-cased method and the path, then the
      claimed time, then the claimed user, on three lines joined by `\n`. */
  function CanonicalMessage(verb: string, path: string, time: string, user: string): (msg: string)
    ensures msg == Join([Upper(verb) + " " + path, TimeLabel + time, UserLabel + user], '\n')
  {
    JoinThree(Upper(verb) + " " + path, TimeLabel + time, UserLabel + user, '\n');
    Upper(verb) + " " + path + "\n" + TimeLabel + time + "\n" + UserLabel + user
  }

  /** `hmac_signature_invalid(request)`: `Success(true)` rejects the request,
      `Success(false)` admits it, and a `Failure` is an exception escaping the
      middleware. The checks run in the order `hmac_signature_invalid` runs them, and the first that
      fails decides: freshness, then the user and password, and only then the
      signature. An unknown user returns early, before any signature is
      computed. A password that is not a string cannot be encoded.
      An admitted request passed every check: its time is a numeric string
      within 300 seconds of the clock, its user is non-empty with a stored
      string password, and its `Authorization` header is exactly `HMAC `
      followed by the signature of its canonical message under that
      password. */
  function HmacSignatureInvalid(req: Request, now: int, resolve: string -> Result<Value>, crypto: Crypto): (r: Result<bool>)
    ensures HasExpired(Header(req, TimeHeader), now).Failure? ==>
              r == Failure(HasExpired(Header(req, TimeHeader), now).error)
    ensures HasExpired(Header(req, TimeHeader), now) == Success(true) ==> r == Success(true)
    ensures r == Success(false) ==> HasExpired(Header(req, TimeHeader), now) == Success(false)
    ensures HasExpired(Header(req, TimeHeader), now) == Success(false)
            && Header(req, UserHeader).Some? && |Header(req, UserHeader).value| > 0
            && resolve(Header(req, UserHeader).value).Failure? ==>
              r == Failure(resolve(Header(req, UserHeader).value).error)
    ensures HasExpired(Header(req, TimeHeader), now) == Success(false)
            && Header(req, UserHeader).Some? && |Header(req, UserHeader).value| > 0
            && resolve(Header(req, UserHeader).value).Success?
            && !resolve(Header(req, UserHeader).value).value.Str?
            && !resolve(Header(req, UserHeader).value).value.Null? ==>
              r == Failure(AttributeError("encode"))
    ensures r == Success(false) ==>
              && Header(req, UserHeader).Some? && |Header(req, UserHeader).value| > 0
              && resolve(Header(req, UserHeader).value).Success?
              && resolve(Header(req, UserHeader).value).value.Str?
    ensures r == Success(false) ==>
              Header(req, AuthorizationHeader) ==
                Some(AuthorizationValue(Signature(crypto, resolve(Header(req, UserHeader).value).value.s,
                  CanonicalMessage(req.verb, req.path, Header(req, TimeHeader).value, Header(req, UserHeader).value))))
  {
    var authTime := Header(req, TimeHeader);
    var expired :- HasExpired(authTime, now);
    if expired then Success(true)
    else
      var creds :- GetCredentials(Header(req, UserHeader), resolve);
      if creds.user.None? || creds.password.Null? then Success(true)
      else
        match creds.password
        case Str(password) =>
          var msg := CanonicalMessage(req.verb, req.path, authTime.value, creds.user.value);
          Success(Header(req, AuthorizationHeader) != Some(AuthorizationValue(Signature(crypto, password, msg))))
        case _ => Failure(AttributeError("encode"))
  }

  /** The 401 response of a rejected request. */
  const Unauthorized: Response := Response(UNAUTHORIZED, Entry("error", Str("Unauthorized")))

  /** `dispatch(request, call_next)`: a rejected request gets the 401
      response, whatever the downstream handler would have done; an admitted
      one gets the handler's result unchanged. */
  function Dispatch(req: Request, now: int, resolve: string -> Result<Value>, crypto: Crypto,
                    callNext: Request -> Result<Response>): (r: Result<Response>)
    ensures HmacSignatureInvalid(req, now, resolve, crypto) == Success(true) ==> r == Success(Unauthorized)
    ensures HmacSignatureInvalid(req, now, resolve, crypto) == Success(false) ==> r == callNext(req)
    ensures HmacSignatureInvalid(req, now, resolve, crypto).Failure? ==>
              r == Failure(HmacSignatureInvalid(req, now, resolve, crypto).error)
  {
    var invalid :- HmacSignatureInvalid(req, now, resolve, crypto);
    if invalid then Success(Unauthorized) else callNext(req)
  }
}

=== FILE: hmac_properties.dfy ===
/** What the HMAC authorizer guarantees: which requests it rejects before
    looking at the signature, the shape of the canonical message and how it
    binds each signed field, and the round trip with a client that signs
    requests the way the service's own test does. */
module HmacProperties {
  import opened Common
  import opened Values
  import opened Strings
  import opened Http
  import opened HmacAuthorizer

  // ---------------------------------------------------------------------------
  // Freshness
  // ---------------------------------------------------------------------------

  /** A missing, empty or non-numeric `Authorization-Time` header, or one
      more than 300 seconds away from the clock, rejects the request whatever
      the user store and the signature: nothing else is consulted. A numeric
      time too long for `int` raises `ValueError`, and one too large for a
      double raises `OverflowError`, out of the middleware. */
  lemma TimeHeaderRejections(req: Request, now: int, resolve: string -> Result<Value>, crypto: Crypto)
    ensures Header(req, TimeHeader).None? ==> HmacSignatureInvalid(req, now, resolve, crypto) == Success(true)
    ensures Header(req, TimeHeader) == Some("") ==> HmacSignatureInvalid(req, now, resolve, crypto) == Success(true)
    ensures Header(req, TimeHeader).Some? && !IsNumeric(Header(req, TimeHeader).value) ==>
              HmacSignatureInvalid(req, now, resolve, crypto) == Success(true)
    ensures Header(req, TimeHeader).Some? && IsNumeric(Header(req, TimeHeader).value)
              && |Header(req, TimeHeader).value| <= MaxIntDigits
              && ParseDecimal(Header(req, TimeHeader).value) < FloatLimit
              && Abs(now - ParseDecimal(Header(req, TimeHeader).value)) > Tolerance ==>
              HmacSignatureInvalid(req, now, resolve, crypto) == Success(true)
    ensures Header(req, TimeHeader).Some? && IsNumeric(Header(req, TimeHeader).value)
              && |Header(req, TimeHeader).value| > MaxIntDigits ==>
              HmacSignatureInvalid(req, now, resolve, crypto) == Failure(ValueError)
    ensures Header(req, TimeHeader).Some? && IsNumeric(Header(req, TimeHeader).value)
              && |Header(req, TimeHeader).value| <= MaxIntDigits
              && ParseDecimal(Header(req, TimeHeader).value) >= FloatLimit ==>
              HmacSignatureInvalid(req, now, resolve, crypto) == Failure(OverflowError)
  {
  }

  /** A time a client writes with `str(t)`, below the double range, is
      expired exactly when it lies more than 300 seconds before or after the
      server clock; a difference of exactly 300 seconds still passes. From
      the double range on, the freshness test raises instead of answering. */
  lemma {:induction false} IssuedTimeExpiry(t: nat, now: int)
    ensures t < FloatLimit ==>
              HasExpired(Some(DecimalString(t)), now) == Success(now - t > 300 || t - now > 300)
    ensures t < FloatLimit ==> HasExpired(Some(DecimalString(t)), t + 300) == Success(false)
    ensures t < FloatLimit ==> HasExpired(Some(DecimalString(t)), t - 300) == Success(false)
    ensures t < FloatLimit ==> HasExpired(Some(DecimalString(t)), t + 301) == Success(true)
    ensures t >= FloatLimit ==> HasExpired(Some(DecimalString(t)), now).Failure?
  {
    ParseDecimalString(t);
    if t < FloatLimit {
      DecimalLengthBelowPow2(t, MaxExponent);
    }
  }

  // ---------------------------------------------------------------------------
  // User and password
  // ---------------------------------------------------------------------------

  /** With a fresh time, a missing or empty `Authorization-User`, or a user
      for whom no password is stored, rejects the request without computing
      any signature: the outcome is the same for every pair of primitives. */
  lemma UnknownUserRejected(req: Request, now: int, resolve: string -> Result<Value>, crypto1: Crypto, crypto2: Crypto)
    requires HasExpired(Header(req, TimeHeader), now) == Success(false)
    requires || Header(req, UserHeader).None?
             || Header(req, UserHeader) == Some("")
             || resolve(Header(req, UserHeader).value) == Success(Null)
    ensures HmacSignatureInvalid(req, now, resolve, crypto1) == Success(true)
    ensures HmacSignatureInvalid(req, now, resolve, crypto2) == Success(true)
  {
  }

  // ---------------------------------------------------------------------------
  // The canonical message
  // ---------------------------------------------------------------------------

  /** Upper-casing introduces no character other than a capital letter. */
  lemma UpperKeepsChar(s: string, c: char)
    requires !IsLower(c) && !('A' <= c <= 'Z')
    requires c !in s
    ensures c !in Upper(s)
  {
    forall i | 0 <= i < |s| ensures Upper(s)[i] != c {
      assert Upper(s)[i] == UpperChar(s[i]);
    }
  }

  /** The canonical message is a concatenation of nine pieces; these are the
      groupings of them the proofs below cut it at. */
  lemma Regroup(a: string, b: string, c: string, d: string, e: string, f: string, g: string, h: string, i: string)
    ensures a + b + c + d + e + f + g + h + i == "" + a + (b + c + d + e + f + g + h + i)
    ensures a + b + c + d + e + f + g + h + i == (a + b) + c + (d + e + f + g + h + i)
    ensures a + b + c + d + e + f + g + h + i == (a + b + c + d + e) + f + (g + h + i)
    ensures a + b + c + d + e + f + g + h + i == (a + b + c + d + e + f + g + h) + i + ""
    ensures a + b + c + d + e + f + g + h + i == (a + b + c + d + e + f + g) + (h + i)
    ensures a + b + c + d + e + f + g + h + i == (a + b + c) + d + ((e + f) + g + (h + i))
  {
  }

  /** The grouping of the nine pieces into three lines and their two
      separators. */
  lemma LineGrouping(a: string, b: string, c: string, d: string, e: string, f: string, g: string, h: string, i: string)
    ensures a + b + c + d + e + f + g + h + i == (a + b + c) + d + (e + f) + g + (h + i)
  {
  }

  /** Three newline-free lines joined by newlines split back into exactly
      those lines. */
  lemma ThreeLines(l0: string, l1: string, l2: string)
    requires '\n' !in l0 && '\n' !in l1 && '\n' !in l2
    ensures Split(l0 + "\n" + l1 + "\n" + l2, '\n') == [l0, l1, l2]
  {
    SplitNoSeparator(l2, '\n');
    SplitPrefix(l1, '\n', l2);
    SplitPrefix(l0, '\n', l1 + "\n" + l2);
    assert l0 + "\n" + l1 + "\n" + l2 == l0 + ['\n'] + (l1 + ['\n'] + l2);
  }

  /** The message is exactly three lines, with no newline after the last:
      the upper-cased method and the path, the time line and the user line,
      provided none of the four fields itself holds a newline. */
  lemma CanonicalMessageLines(verb: string, path: string, time: string, user: string)
    requires '\n' !in verb && '\n' !in path && '\n' !in time && '\n' !in user
    ensures Split(CanonicalMessage(verb, path, time, user), '\n') ==
              [Upper(verb) + " " + path, TimeLabel + time, UserLabel + user]
    ensures var msg := CanonicalMessage(verb, path, time, user);
              msg[|msg| - 1] != '\n'
  {
    var l0, l1, l2 := Upper(verb) + " " + path, TimeLabel + time, UserLabel + user;
    LinesWithoutNewline(verb, path, time, user);
    LineGrouping(Upper(verb), " ", path, "\n", TimeLabel, time, "\n", UserLabel, user);
    ThreeLines(l0, l1, l2);
    LastCharacter(verb, path, time, user);
  }

  lemma LinesWithoutNewline(verb: string, path: string, time: string, user: string)
    requires '\n' !in verb && '\n' !in path && '\n' !in time && '\n' !in user
    ensures '\n' !in Upper(verb) + " " + path
    ensures '\n' !in TimeLabel + time
    ensures '\n' !in UserLabel + user
  {
    UpperKeepsChar(verb, '\n');
    NoNewline(Upper(verb), " ", path);
    assert '\n' !in TimeLabel && '\n' !in UserLabel;
    NoNewline(TimeLabel, "", time);
    NoNewline(UserLabel, "", user);
    assert TimeLabel + time == TimeLabel + "" + time;
    assert UserLabel + user == UserLabel + "" + user;
  }

  lemma LastCharacter(verb: string, path: string, time: string, user: string)
    requires '\n' !in user
    ensures var msg := CanonicalMessage(verb, path, time, user);
              msg[|msg| - 1] != '\n'
  {
    var last := UserLabel + user;
    Regroup(Upper(verb), " ", path, "\n", TimeLabel, time, "\n", UserLabel, user);
    var msg := CanonicalMessage(verb, path, time, user);
    assert msg[|msg| - 1] == last[|last| - 1];
    if |user| == 0 {
      assert last[|last| - 1] == ' ';
    } else {
      assert last[|last| - 1] == user[|user| - 1];
    }
  }

  lemma NoNewline(a: string, b: string, c: string)
    requires '\n' !in a && '\n' !in b && '\n' !in c
    ensures '\n' !in a + b + c
  {
  }

  lemma MiddleCancel(x: string, a: string, b: string, y: string)
    requires x + a + y == x + b + y
    ensures a == b
  {
    var s1, s2 := x + a + y, x + b + y;
    assert |a| == |b|;
    assert a == s1[|x|..|x| + |a|];
    assert b == s2[|x|..|x| + |b|];
  }

  /** Holding the other fields fixed, two requests sign the same message
      exactly when their methods agree once upper-cased, so `get` and `GET`
      sign alike. */
  lemma MessageBindsMethod(verb: string, verb': string, path: string, time: string, user: string)
    ensures (CanonicalMessage(verb, path, time, user) == CanonicalMessage(verb', path, time, user))
              <==> Upper(verb) == Upper(verb')
  {
    Regroup(Upper(verb), " ", path, "\n", TimeLabel, time, "\n", UserLabel, user);
    Regroup(Upper(verb'), " ", path, "\n", TimeLabel, time, "\n", UserLabel, user);
    if CanonicalMessage(verb, path, time, user) == CanonicalMessage(verb', path, time, user) {
      MiddleCancel("", Upper(verb), Upper(verb'), " " + path + "\n" + TimeLabel + time + "\n" + UserLabel + user);
    }
  }

  /** Holding the other fields fixed, two requests sign the same message
      exactly when their paths agree. */
  lemma MessageBindsPath(verb: string, path: string, path': string, time: string, user: string)
    ensures (CanonicalMessage(verb, path, time, user) == CanonicalMessage(verb, path', time, user))
              <==> path == path'
  {
    Regroup(Upper(verb), " ", path, "\n", TimeLabel, time, "\n", UserLabel, user);
    Regroup(Upper(verb), " ", path', "\n", TimeLabel, time, "\n", UserLabel, user);
    if CanonicalMessage(verb, path, time, user) == CanonicalMessage(verb, path', time, user) {
      MiddleCancel(Upper(verb) + " ", path, path', "\n" + TimeLabel + time + "\n" + UserLabel + user);
    }
  }

  /** Holding the other fields fixed, two requests sign the same message
      exactly when their time strings agree (so `0100` and `100` differ). */
  lemma MessageBindsTime(verb: string, path: string, time: string, time': string, user: string)
    ensures (CanonicalMessage(verb, path, time, user) == CanonicalMessage(verb, path, time', user))
              <==> time == time'
  {
    Regroup(Upper(verb), " ", path, "\n", TimeLabel, time, "\n", UserLabel, user);
    Regroup(Upper(verb), " ", path, "\n", TimeLabel, time', "\n", UserLabel, user);
    if CanonicalMessage(verb, path, time, user) == CanonicalMessage(verb, path, time', user) {
      MiddleCancel(Upper(verb) + " " + path + "\n" + TimeLabel, time, time', "\n" + UserLabel + user);
    }
  }

  /** Holding the other fields fixed, two requests sign the same message
      exactly when their users agree. */
  lemma MessageBindsUser(verb: string, path: string, time: string, user: string, user': string)
    ensures (CanonicalMessage(verb, path, time, user) == CanonicalMessage(verb, path, time, user'))
              <==> user == user'
  {
    Regroup(Upper(verb), " ", path, "\n", TimeLabel, time, "\n", UserLabel, user);
    Regroup(Upper(verb), " ", path, "\n", TimeLabel, time, "\n", UserLabel, user');
    if CanonicalMessage(verb, path, time, user) == CanonicalMessage(verb, path, time, user') {
      MiddleCancel(Upper(verb) + " " + path + "\n" + TimeLabel + time + "\n" + UserLabel, user, user', "");
    }
  }

  /** Two strings cut at their last character outside a class `inTail`, where
      everything after the cut is in the class: equal strings are cut at the
      same place. */
  lemma LastBoundary(x1: string, y1: string, x2: string, y2: string, inTail: char -> bool)
    requires x1 + y1 == x2 + y2
    requires |x1| > 0 && !inTail(x1[|x1| - 1])
    requires |x2| > 0 && !inTail(x2[|x2| - 1])
    requires forall i :: 0 <= i < |y1| ==> inTail(y1[i])
    requires forall i :: 0 <= i < |y2| ==> inTail(y2[i])
    ensures x1 == x2 && y1 == y2
  {
    var s := x1 + y1;
    forall j | |x1| <= j < |s| ensures inTail(s[j]) {
      assert s[j] == y1[j - |x1|];
    }
    forall j | |x2| <= j < |s| ensures inTail(s[j]) {
      assert s[j] == (x2 + y2)[j] == y2[j - |x2|];
    }
    assert !inTail(s[|x1| - 1]) && !inTail(s[|x2| - 1]);
    assert |x1| == |x2|;
    assert x1 == s[..|x1|] == x2;
    assert y1 == s[|x1|..] == y2;
  }

  lemma RightCancel(a: string, b: string, y: string)
    requires a + y == b + y
    ensures a == b
  {
    assert a == (a + y)[..|a|];
    assert b == (b + y)[..|b|];
  }

  /** The first space of a string whose head holds none separates it. */
  lemma FirstSpace(x1: string, y1: string, x2: string, y2: string)
    requires ' ' !in x1 && ' ' !in x2
    requires x1 + " " + y1 == x2 + " " + y2
    ensures x1 == x2 && y1 == y2
  {
    SplitPrefix(x1, ' ', y1);
    SplitPrefix(x2, ' ', y2);
    assert ([x1] + Split(y1, ' '))[0] == x1;
    assert ([x2] + Split(y2, ' '))[0] == x2;
    MiddleCancel(x1 + " ", y1, y2, "");
  }

  /** Over the requests the authorizer signs (a method without spaces, a
      numeric time, a user name without a newline), the canonical message
      determines every field it is built from: no two such requests share a
      message through concatenation ambiguity, even when the path holds
      newlines or spaces. */
  lemma CanonicalMessageInjective(verb: string, path: string, time: string, user: string,
                                  verb': string, path': string, time': string, user': string)
    requires ' ' !in verb && ' ' !in verb'
    requires IsNumeric(time) && IsNumeric(time')
    requires '\n' !in user && '\n' !in user'
    requires CanonicalMessage(verb, path, time, user) == CanonicalMessage(verb', path', time', user')
    ensures Upper(verb) == Upper(verb') && path == path' && time == time' && user == user'
  {
    var U, U' := Upper(verb), Upper(verb');
    UserLineDecides(U + " " + path + "\n" + TimeLabel + time, user, U' + " " + path' + "\n" + TimeLabel + time', user');
    TimeLineDecides(U + " " + path, time, U' + " " + path', time');
    UpperKeepsChar(verb, ' ');
    UpperKeepsChar(verb', ' ');
    FirstSpace(U, path, U', path');
  }

  /** The text after the last newline is the user. */
  lemma UserLineDecides(head: string, user: string, head': string, user': string)
    requires '\n' !in user && '\n' !in user'
    requires head + "\n" + UserLabel + user == head' + "\n" + UserLabel + user'
    ensures head == head' && user == user'
  {
    var userLine, userLine' := UserLabel + user, UserLabel + user';
    assert forall i :: 0 <= i < |userLine| ==> userLine[i] != '\n' by {
      forall i | 0 <= i < |userLine| ensures userLine[i] != '\n' {
        if i >= |UserLabel| { assert userLine[i] == user[i - |UserLabel|]; }
      }
    }
    assert forall i :: 0 <= i < |userLine'| ==> userLine'[i] != '\n' by {
      forall i | 0 <= i < |userLine'| ensures userLine'[i] != '\n' {
        if i >= |UserLabel| { assert userLine'[i] == user'[i - |UserLabel|]; }
      }
    }
    assert head + "\n" + UserLabel + user == (head + "\n") + userLine;
    assert head' + "\n" + UserLabel + user' == (head' + "\n") + userLine';
    LastBoundary(head + "\n", userLine, head' + "\n", userLine', c => c != '\n');
    MiddleCancel(UserLabel, user, user', "");
    RightCancel(head, head', "\n");
  }

  /** The digits at the end of the second line are the time. */
  lemma TimeLineDecides(first: string, time: string, first': string, time': string)
    requires IsNumeric(time) && IsNumeric(time')
    requires first + "\n" + TimeLabel + time == first' + "\n" + TimeLabel + time'
    ensures first == first' && time == time'
  {
    var timed, timed' := first + "\n" + TimeLabel, first' + "\n" + TimeLabel;
    assert timed[|timed| - 1] == ' ' && timed'[|timed'| - 1] == ' ';
    LastBoundary(timed, time, timed', time', IsDigit);
    RightCancel(first + "\n", first' + "\n", TimeLabel);
    RightCancel(first, first', "\n");
  }

  // ---------------------------------------------------------------------------
  // Round trip with the client signer
  // ---------------------------------------------------------------------------

  /** The headers a client sends for a request signed at time `t` (seconds),
      built as the service's test builds them: the time as `str(t)`, the
      user, and `HMAC ` followed by the base64 HMAC-SHA-256 of the canonical
      message keyed by the password. */
  function SignedHeaders(crypto: Crypto, password: string, verb: string, path: string, t: nat, user: string): map<string, string> {
    var msg := Upper(verb) + " " + path + "\n"
               + "Authorization-Time: " + DecimalString(t) + "\n"
               + "Authorization-User: " + user;
    map[TimeHeader := DecimalString(t),
        UserHeader := user,
        AuthorizationHeader := "HMAC " + crypto.b64encode(crypto.hmacSha256(password, msg))]
  }

  /** A request carrying a client's signed headers, sent by a user whose
      stored password is the one the client signed with, is admitted exactly
      when the server clock is within 300 seconds of the signing time (for a
      time below the double range, beyond which the freshness test raises); with any
      other `Authorization` value it is never admitted. */
  lemma {:induction false} SignedRequestRoundTrip(crypto: Crypto, password: string, verb: string, path: string,
                                t: nat, user: string, now: int, resolve: string -> Result<Value>, forged: string)
    requires |user| > 0
    requires resolve(user) == Success(Str(password))
    ensures var req := Request(verb, path, SignedHeaders(crypto, password, verb, path, t, user));
      t < FloatLimit ==> HmacSignatureInvalid(req, now, resolve, crypto) == Success(Abs(now - t) > Tolerance)
    ensures var req := Request(verb, path, SignedHeaders(crypto, password, verb, path, t, user));
      t >= FloatLimit ==> HmacSignatureInvalid(req, now, resolve, crypto).Failure?
    ensures var headers := SignedHeaders(crypto, password, verb, path, t, user);
      var req := Request(verb, path, headers[AuthorizationHeader := forged]);
      forged != headers[AuthorizationHeader] ==> HmacSignatureInvalid(req, now, resolve, crypto) != Success(false)
  {
    IssuedTimeExpiry(t, now);
    ParseDecimalString(t);
    var headers := SignedHeaders(crypto, password, verb, path, t, user);
    var req := Request(verb, path, headers);
    assert Header(req, TimeHeader) == Some(DecimalString(t));
    assert Header(req, UserHeader) == Some(user);
    var forgedReq := Request(verb, path, headers[AuthorizationHeader := forged]);
    assert Header(forgedReq, TimeHeader) == Some(DecimalString(t));
    assert Header(forgedReq, UserHeader) == Some(user);
    assert Header(forgedReq, AuthorizationHeader) == Some(forged);
  }

  /** With a fresh time and a user whose stored password is a string, the
      request is admitted exactly when its `Authorization` header is `HMAC `
      followed by the signature of its canonical message under that
      password. */
  lemma SignatureDecides(req: Request, now: int, resolve: string -> Result<Value>, crypto: Crypto, password: string)
    requires HasExpired(Header(req, TimeHeader), now) == Success(false)
    requires Header(req, UserHeader).Some? && |Header(req, UserHeader).value| > 0
    requires resolve(Header(req, UserHeader).value) == Success(Str(password))
    ensures var msg := CanonicalMessage(req.verb, req.path, Header(req, TimeHeader).value, Header(req, UserHeader).value);
      && HmacSignatureInvalid(req, now, resolve, crypto).Success?
      && ((HmacSignatureInvalid(req, now, resolve, crypto) == Success(false))
            <==> (Header(req, AuthorizationHeader) == Some(AuthorizationValue(Signature(crypto, password, msg)))))
  {
  }

  /** A request without an `Authorization` header is never admitted; once
      its time converts and its user resolves to a string password or to
      none, it is rejected. */
  lemma UnsignedRejected(req: Request, now: int, resolve: string -> Result<Value>, crypto: Crypto)
    requires Header(req, AuthorizationHeader).None?
    ensures HmacSignatureInvalid(req, now, resolve, crypto) != Success(false)
    ensures HasExpired(Header(req, TimeHeader), now).Success?
            && (Header(req, UserHeader).Some? ==>
                  var pw := resolve(Header(req, UserHeader).value);
                  pw.Success? && (pw.value.Str? || pw.value.Null?))
            ==> HmacSignatureInvalid(req, now, resolve, crypto) == Success(true)
  {
  }

  /** A rejected request never reaches the downstream handler: `dispatch`
      answers 401 `{"error": "Unauthorized"}` whichever handler it was given. */
  lemma RejectedNeverForwarded(req: Request, now: int, resolve: string -> Result<Value>, crypto: Crypto,
                               handler1: Request -> Result<Response>, handler2: Request -> Result<Response>)
    requires HmacSignatureInvalid(req, now, resolve, crypto) == Success(true)
    ensures Dispatch(req, now, resolve, crypto, handler1) == Dispatch(req, now, resolve, crypto, handler2)
    ensures Dispatch(req, now, resolve, crypto, handler1).value.status == 401
    ensures Dispatch(req, now, resolve, crypto, handler1).value.body == Dict(map["error" := Str("Unauthorized")])
  {
  }
}

=== FILE: http.dfy ===
/** The slice of an HTTP exchange the service looks at: the request's method,
    path and headers, and a response's status code and JSON body. */
module Http {
  import opened Common
  import opened Values

  /** An inbound request. `path` is `request.url.path`, without the query
      string. Header names are matched exactly as written. */
  datatype Request = Request(verb: string, path: string, headers: map<string, string>)

  /** `request.headers.get(name)`. */
  function Header(req: Request, name: string): Option<string> {
    if name in req.headers then Some(req.headers[name]) else None
  }

  /** A `JSONResponse(status_code=status, content=body)`. */
  datatype Response = Response(status: int, body: Value)

  const OK: int := 200
  const UNAUTHORIZED: int := 401
  const NOT_FOUND: int := 404
}

=== FILE: product_repository.dfy ===
/** `InMemoryProductRepository`
    (src/product_detail_store/repositories/in_memory/inmemory_product_repository.py):
    products filed by barcode in a dictionary, with add, lookup and clear.
    The dictionary is modelled as an immutable `Store` value with pure
    operations; the class at the end holds one as mutable state, as the
    Python object does. */
module ProductRepository {
  import opened Common

  /** `Product` (src/product_detail_store/models/product.py). The price is a
      Python float on which no arithmetic is done; a `real` stands in for it. */
  datatype Product = Product(id: string, name: string, price: real, currency: string)

  /** The repository's `_products_by_barcode` dictionary. */
  datatype Store = Store(byBarcode: map<string, Product>)

  /** A fresh repository, and the state `clear()` leaves behind. */
  const Empty: Store := Store(map[])

  /** Every product is filed under its own id. */
  ghost predicate Keyed(s: Store) {
    forall b :: b in s.byBarcode ==> s.byBarcode[b].id == b
  }

  /** `get_by_barcode(barcode)`: `_products_by_barcode.get(barcode)`, the
      product filed under the barcode, or `None` when nothing is. */
  function Get(s: Store, barcode: string): (r: Option<Product>)
    ensures r.Some? <==> barcode in s.byBarcode
    ensures r.Some? ==> r.value == s.byBarcode[barcode]
  {
    if barcode in s.byBarcode then Some(s.byBarcode[barcode]) else None
  }

  /** `add_product(product)`: files the product under its id, replacing any
      product already there and leaving every other barcode as it was. */
  function Add(s: Store, p: Product): (r: Store)
    ensures Get(r, p.id) == Some(p)
    ensures forall b :: b != p.id ==> Get(r, b) == Get(s, b)
    ensures Keyed(s) ==> Keyed(r)
  {
    Store(s.byBarcode[p.id := p])
  }

  /** Nothing is found in a fresh or cleared repository, and the empty
      repository files every product under its own id. */
  lemma EmptyStore(barcode: string)
    ensures Get(Empty, barcode) == None
    ensures Keyed(Empty)
  {
  }

  /** In a repository built by `add_product` calls alone, a lookup that
      succeeds returns a product whose id is the barcode asked for. */
  lemma KeyedLookup(s: Store, barcode: string)
    requires Keyed(s)
    ensures Get(s, barcode).Some? ==> Get(s, barcode).value.id == barcode
  {
  }

  /** The Python object: one mutable dictionary. */
  class InMemoryProductRepository {
    var store: Store

    /** `__init__`: starts empty. */
    constructor()
      ensures store == Empty
    {
      store := Empty;
    }

    /** `add_product(product)`: the product is found under its id
        afterwards, and every other barcode finds what it found before. */
    method AddProduct(p: Product)
      modifies this
      ensures store == Add(old(store), p)
      ensures Get(store, p.id) == Some(p)
      ensures forall b :: b != p.id ==> Get(store, b) == Get(old(store), b)
    {
      store := Add(store, p);
    }

    /** `get_by_barcode(barcode)`: reads the dictionary without modifying it
        (no `modifies` clause). */
    method GetByBarcode(barcode: string) returns (r: Option<Product>)
      ensures r.Some? <==> barcode in store.byBarcode
      ensures r.Some? ==> r.value == store.byBarcode[barcode]
      ensures r == Get(store, barcode)
    {
      r := Get(store, barcode);
    }

    /** `clear()`: replaces the dictionary with an empty one. */
    method Clear()
      modifies this
      ensures store == Empty
      ensures forall b :: Get(store, b) == None
    {
      store := Empty;
    }
  }
}

=== FILE: products.dfy ===
/** The `GET /products/{barcode}` endpoint
    (src/product_detail_store/fastapi/endpoints/products.py): the stored
    product, or a 404 naming the barcode. */
module Products {
  import opened Common
  import opened Values
  import opened Http
  import opened ProductRepository
  import opened ServiceFactory

  /** The 404 detail for an unknown barcode. */
  function NotFoundDetail(barcode: string): string {
    "Could not find product with barcode \"" + barcode + "\""
  }

  /** The lookup in the product repository: the stored product unchanged
      when the barcode is filed, otherwise `HTTPException` with status 404
      and the detail naming the barcode. The repository is only read. */
  function FindProduct(repo: Store, barcode: string): (r: Result<Product>)
    ensures r.Success? <==> barcode in repo.byBarcode
    ensures r.Success? ==> r.value == repo.byBarcode[barcode]
    ensures r.Failure? ==> r.error == HttpException(NOT_FOUND, NotFoundDetail(barcode))
  {
    match Get(repo, barcode)
    case None => Failure(HttpException(NOT_FOUND, NotFoundDetail(barcode)))
    case Some(product) => Success(product)
  }

  /** `get_product(barcode)`: `instance` is the configuration of the
      registered factory (`None` when none is registered, and `get_instance()`
      raises) and `repo` the contents of that factory's memoised product
      repository. Fetching the repository raises when the path to
      `repositories.products.mocked` runs into a non-dictionary; it never
      yields the `None` on which `get_by_barcode` would raise. */
  function GetProduct(instance: Option<Value>, repo: Store, barcode: string): (r: Result<Product>)
    ensures instance.None? ==> r == Failure(NotInitialized)
    ensures instance.Some? && Descend(instance.value, ["repositories", "products", "mocked"]).NotADict? ==>
              r == Failure(AttributeError("get"))
    ensures instance.Some? && !Descend(instance.value, ["repositories", "products", "mocked"]).NotADict? ==>
              r == FindProduct(repo, barcode)
  {
    match instance
    case None => Failure(NotInitialized)
    case Some(config) =>
      match ProductRepositoryMocked(config)
      case Failure(e) => Failure(e)
      case Success(mocked) =>
        if mocked then FindProduct(repo, barcode) else Failure(AttributeError("get_by_barcode"))
  }

  /** `get_product(barcode)` on the objects: the current factory from the
      registry, its memoised product repository, and the lookup in it. The
      result is what `GetProduct` gives for the factory's configuration and
      the repository's contents. */
  method Endpoint(registry: Registry, barcode: string) returns (r: Result<Product>)
    requires registry.instance != null ==> registry.instance.Valid()
    modifies registry.instance
    ensures registry.instance != null ==> registry.instance.Valid()
    ensures registry.instance != null && old(registry.instance.productRepositoryMemo).Some? ==>
              registry.instance.productRepositoryMemo == old(registry.instance.productRepositoryMemo)
    ensures registry.instance == null ==> r == GetProduct(None, Empty, barcode)
    ensures registry.instance != null && ProductRepositoryMocked(registry.instance.config).Failure? ==>
              r == GetProduct(Some(registry.instance.config), Empty, barcode)
    ensures registry.instance != null && ProductRepositoryMocked(registry.instance.config).Success? ==>
              && registry.instance.productRepositoryMemo.Some?
              && registry.instance.productRepositoryMemo.value != null
              && r == GetProduct(Some(registry.instance.config), registry.instance.productRepositoryMemo.value.store, barcode)
  {
    var instance := registry.GetInstance();
    if instance.Failure? {
      return Failure(instance.error);
    }
    var factory := instance.value;
    var repo := factory.GetProductRepository();
    if repo.Failure? {
      LookupAfterFactory(factory.config, Empty, barcode);
      return Failure(repo.error);
    }
    var store := repo.value.store;
    LookupAfterFactory(factory.config, store, barcode);
    var product := repo.value.GetByBarcode(barcode);
    if product.None? {
      return Failure(HttpException(NOT_FOUND, NotFoundDetail(barcode)));
    }
    return Success(product.value);
  }

  /** Two requests in a row against the same registered factory, as a
      running server serves them: the second is answered from the same
      memoised repository as the first. */
  method ServeTwice(registry: Registry, first: string, second: string) returns (r1: Result<Product>, r2: Result<Product>)
    requires registry.instance != null ==> registry.instance.Valid()
    modifies registry.instance
    ensures registry.instance != null ==> registry.instance.Valid()
    ensures registry.instance != null && ProductRepositoryMocked(registry.instance.config).Success? ==>
              && registry.instance.productRepositoryMemo.Some?
              && registry.instance.productRepositoryMemo.value != null
              && r1 == GetProduct(Some(registry.instance.config), registry.instance.productRepositoryMemo.value.store, first)
              && r2 == GetProduct(Some(registry.instance.config), registry.instance.productRepositoryMemo.value.store, second)
  {
    r1 := Endpoint(registry, first);
    if registry.instance != null && ProductRepositoryMocked(registry.instance.config).Success? {
      var repo := registry.instance.productRepositoryMemo.value;
      var store := repo.store;
      r2 := Endpoint(registry, second);
      assert registry.instance.productRepositoryMemo.value == repo && repo.store == store;
    } else {
      r2 := Endpoint(registry, second);
    }
  }

  /** Once the factory's product repository is fetched, the endpoint is the
      lookup in it; when the fetch raises, so does the endpoint. */
  lemma LookupAfterFactory(config: Value, repo: Store, barcode: string)
    ensures ProductRepositoryMocked(config).Success? ==> GetProduct(Some(config), repo, barcode) == FindProduct(repo, barcode)
    ensures ProductRepositoryMocked(config).Failure? ==>
              GetProduct(Some(config), repo, barcode) == Failure(ProductRepositoryMocked(config).error)
  {
  }

  /** A product added through the repository is served back unchanged by
      its id, and adding it leaves what the endpoint serves for every other
      barcode as it was. */
  lemma AddThenGet(repo: Store, p: Product, barcode: string)
    ensures FindProduct(Add(repo, p), p.id) == Success(p)
    ensures barcode != p.id ==> FindProduct(Add(repo, p), barcode) == FindProduct(repo, barcode)
  {
  }

  /** Nothing is served from a fresh or cleared repository. */
  lemma EmptyServesNothing(barcode: string)
    ensures FindProduct(Empty, barcode) == Failure(HttpException(404, NotFoundDetail(barcode)))
  {
  }

  /** The 404 detail names exactly one barcode: different barcodes give
      different messages. */
  lemma {:induction false} NotFoundDetailInjective(b1: string, b2: string)
    ensures NotFoundDetail(b1) == NotFoundDetail(b2) <==> b1 == b2
  {
    var prefix := "Could not find product with barcode \"";
    if NotFoundDetail(b1) == NotFoundDetail(b2) {
      var s1, s2 := NotFoundDetail(b1), NotFoundDetail(b2);
      assert |b1| == |b2|;
      assert b1 == s1[|prefix|..|prefix| + |b1|];
      assert b2 == s2[|prefix|..|prefix| + |b2|];
    }
  }
}

=== FILE: service.dfy ===
/** The assembled service (src/product_detail_store/fastapi/api.py wires it):
    the HMAC middleware in front of the products route, whose `HTTPException`s
    the registered handler turns into error envelopes; and the scenario the
    service's endpoint test drives through it. */
module Service {
  import opened Common
  import opened Values
  import opened Strings
  import opened Http
  import opened ProductRepository
  import opened UserRepository
  import opened ServiceFactory
  import opened HmacAuthorizer
  import opened HmacProperties
  import opened Products
  import opened ExceptionHandler

  /** The JSON object a `Product` is served as. */
  function ProductJson(p: Product): Value {
    Dict(map["id" := Str(p.id), "name" := Str(p.name), "price" := Float(p.price), "currency" := Str(p.currency)])
  }

  /** The handler behind the middleware for `GET /products/{barcode}`: the
      product as JSON with status 200, the exception handler's envelope for
      an `HTTPException`, or any other exception escaping. */
  function ProductRoute(instance: Option<Value>, repo: Store, barcode: string): Request -> Result<Response> {
    (req: Request) =>
      var found: Result<Product> := GetProduct(instance, repo, barcode);
      if found.Success? then Success(Response(OK, ProductJson(found.value)))
      else if found.error.HttpException? then Success(HandleException(req.path, found.error))
      else Failure(found.error)
  }

  /** One request for the product `barcode`, answered by the middleware and
      the route, with the registered factory's configuration `instance`,
      its product repository `repo`, and the clock `now`. */
  function ServeProduct(req: Request, barcode: string, now: int, instance: Option<Value>,
                        repo: Store, crypto: Crypto): Result<Response> {
    Dispatch(req, now, Resolver(instance), crypto, ProductRoute(instance, repo, barcode))
  }

  // ---------------------------------------------------------------------------
  // The endpoint test's scenario
  // ---------------------------------------------------------------------------

  /** The users the test registers: `test-user`, whose password is `mock`. */
  const TestRecords: Value := Dict(map["test-user" := Dict(map["password" := Str("mock")])])

  /** The factory configuration the test registers (its `auth` block is never
      read by the service). */
  const TestConfig: Value :=
    Dict(map[
      "repositories" := Dict(map[
        "products" := Dict(map["mocked" := Bool(true)]),
        "users" := Dict(map["mocked" := Bool(true), "records" := TestRecords])]),
      "auth" := Dict(map["type" := Str("bearer_simple"), "secret" := Str("password")])])

  /** The request the test's `_get_product_by_barcode` sends at time `t`,
      signed as its `sign_request` signs it. */
  function TestRequest(crypto: Crypto, t: nat, barcode: string): Request {
    var msg := "GET /products/" + barcode + "\n"
               + "Authorization-Time: " + DecimalString(t) + "\n"
               + "Authorization-User: test-user";
    Request("GET", "/products/" + barcode, map[
      "Authorization-Time" := DecimalString(t),
      "Authorization-User" := "test-user",
      "Authorization" := "HMAC " + crypto.b64encode(crypto.hmacSha256("mock", msg))])
  }

  /** The test configuration's users repository holds the test's records. */
  lemma TestUsersRepository()
    ensures GetUsersRepository(TestConfig) == Success(Some(InMemoryUserRepository(TestRecords)))
  {
    var repositories := TestConfig.entries["repositories"];
    var users := repositories.entries["users"];
    DescendThree(TestConfig, "repositories", "users", "records");
    assert Descend(users, ["records"]) == Found(TestRecords) by {
      assert ["records"][1..] == [];
    }
    assert Truthy(TestRecords) by {
      assert "test-user" in TestRecords.entries;
    }
  }

  /** The test user's password resolves through the registered factory. */
  lemma TestUserPassword()
    ensures Resolver(Some(TestConfig))("test-user") == Success(Str("mock"))
  {
    TestUsersRepository();
    PasswordCases(TestRecords.entries, "test-user");
  }

  /** The test configuration selects the in-memory product repository. */
  lemma TestProductsRepository()
    ensures ProductRepositoryMocked(TestConfig) == Success(true)
  {
    DescendThree(TestConfig, "repositories", "products", "mocked");
    assert ["mocked"][1..] == [];
  }

  /** The test's hand-written signer builds the same headers as a client
      signing a `GET` with the canonical message. */
  lemma TestRequestIsSigned(crypto: Crypto, t: nat, barcode: string)
    ensures TestRequest(crypto, t, barcode)
              == Request("GET", "/products/" + barcode,
                         SignedHeaders(crypto, "mock", "GET", "/products/" + barcode, t, "test-user"))
  {
    var path, time := "/products/" + barcode, DecimalString(t);
    assert Upper("GET") == "GET";
    assert "GET /products/" + barcode == Upper("GET") + " " + path;
    var testMsg := "GET /products/" + barcode + "\n" + "Authorization-Time: " + time + "\n"
                   + "Authorization-User: test-user";
    var clientMsg := Upper("GET") + " " + path + "\n" + "Authorization-Time: " + time + "\n"
                     + "Authorization-User: " + "test-user";
    assert testMsg == clientMsg;
  }

  /** What the route answers: for a registered factory whose product
      repository can be fetched, the stored product with 200 or the
      handler's 404 envelope; otherwise the exception of `get_instance()` or
      of the fetch escapes, since the handler only catches `HTTPException`. */
  lemma RouteAnswers(instance: Option<Value>, repo: Store, barcode: string, req: Request)
    ensures instance.None? ==> ProductRoute(instance, repo, barcode)(req) == Failure(NotInitialized)
    ensures instance.Some? && ProductRepositoryMocked(instance.value).Failure? ==>
              ProductRoute(instance, repo, barcode)(req) == Failure(AttributeError("get"))
    ensures instance.Some? && ProductRepositoryMocked(instance.value).Success? && Get(repo, barcode).Some? ==>
              ProductRoute(instance, repo, barcode)(req) == Success(Response(OK, ProductJson(Get(repo, barcode).value)))
    ensures instance.Some? && ProductRepositoryMocked(instance.value).Success? && Get(repo, barcode).None? ==>
              ProductRoute(instance, repo, barcode)(req)
                == Success(HandleException(req.path, HttpException(NOT_FOUND, NotFoundDetail(barcode))))
  {
  }

  /** A request the middleware admits reaches the route unchanged; a
      rejected one gets the 401 response. */
  lemma ServeDecides(req: Request, barcode: string, now: int, repo: Store, crypto: Crypto)
    ensures HmacSignatureInvalid(req, now, Resolver(Some(TestConfig)), crypto) == Success(false) ==>
              ServeProduct(req, barcode, now, Some(TestConfig), repo, crypto) == ProductRoute(Some(TestConfig), repo, barcode)(req)
    ensures HmacSignatureInvalid(req, now, Resolver(Some(TestConfig)), crypto) == Success(true) ==>
              ServeProduct(req, barcode, now, Some(TestConfig), repo, crypto) == Success(Unauthorized)
  {
  }

  /** The test's signed request is judged on its freshness alone; a time
      past the double range raises. */
  lemma TestRequestJudged(crypto: Crypto, t: nat, now: int, barcode: string)
    ensures t < FloatLimit ==>
              HmacSignatureInvalid(TestRequest(crypto, t, barcode), now, Resolver(Some(TestConfig)), crypto)
                == Success(Abs(now - t) > Tolerance)
    ensures t >= FloatLimit ==>
              HmacSignatureInvalid(TestRequest(crypto, t, barcode), now, Resolver(Some(TestConfig)), crypto).Failure?
  {
    TestUserPassword();
    TestRequestIsSigned(crypto, t, barcode);
    SignedRequestRoundTrip(crypto, "mock", "GET", "/products/" + barcode, t, "test-user", now,
                           Resolver(Some(TestConfig)), "");
  }

  /** The endpoint test, for any barcode and any product repository: a
      request signed at `t` and served within 300 seconds returns the stored
      product as JSON with status 200, or, for a barcode that is not stored,
      exactly the 404 envelope the test expects. A time past the double range
      makes the middleware raise instead. */
  lemma TestGetProduct(crypto: Crypto, t: nat, now: int, barcode: string, repo: Store)
    requires Abs(now - t) <= Tolerance
    ensures t < FloatLimit && Get(repo, barcode).Some? ==>
              ServeProduct(TestRequest(crypto, t, barcode), barcode, now, Some(TestConfig), repo, crypto)
                == Success(Response(OK, ProductJson(Get(repo, barcode).value)))
    ensures t >= FloatLimit ==>
              ServeProduct(TestRequest(crypto, t, barcode), barcode, now, Some(TestConfig), repo, crypto).Failure?
    ensures t < FloatLimit && Get(repo, barcode).None? ==>
              ServeProduct(TestRequest(crypto, t, barcode), barcode, now, Some(TestConfig), repo, crypto)
                == Success(Response(NOT_FOUND, Dict(map[
                     "message" := Str("Could not find product with barcode \"" + barcode + "\""),
                     "errors" := Dict(map[
                       "location" := Str("/products/" + barcode),
                       "message" := Str("Could not find product with barcode \"" + barcode + "\"")]),
                     "code" := Int(404)])))
  {
    var req := TestRequest(crypto, t, barcode);
    TestRequestJudged(crypto, t, now, barcode);
    ServeDecides(req, barcode, now, repo, crypto);
    TestProductsRepository();
    RouteAnswers(Some(TestConfig), repo, barcode, req);
    NotFoundEnvelope(barcode);
  }

  /** The envelope of the endpoint's 404, written out as the test expects it. */
  lemma NotFoundEnvelope(barcode: string)
    ensures HandleException("/products/" + barcode, HttpException(NOT_FOUND, NotFoundDetail(barcode)))
              == Response(NOT_FOUND, Dict(map[
                   "message" := Str("Could not find product with barcode \"" + barcode + "\""),
                   "errors" := Dict(map[
                     "location" := Str("/products/" + barcode),
                     "message" := Str("Could not find product with barcode \"" + barcode + "\"")]),
                   "code" := Int(404)]))
  {
  }

  /** The same request with its `Authorization` header left out, or signed
      more than 300 seconds away from the server clock, is answered 401
      `{"error": "Unauthorized"}` and never reaches the route (for a time
      below the double range, beyond which the middleware raises). */
  lemma TestUnauthorized(crypto: Crypto, t: nat, now: int, barcode: string, repo: Store)
    ensures var req := TestRequest(crypto, t, barcode);
      var unsigned := Request(req.verb, req.path, req.headers - {"Authorization"});
      t < FloatLimit ==> ServeProduct(unsigned, barcode, now, Some(TestConfig), repo, crypto) == Success(Unauthorized)
    ensures t < FloatLimit && Abs(now - t) > Tolerance ==>
      ServeProduct(TestRequest(crypto, t, barcode), barcode, now, Some(TestConfig), repo, crypto)
        == Success(Unauthorized)
  {
    var req := TestRequest(crypto, t, barcode);
    TestRequestJudged(crypto, t, now, barcode);
    ServeDecides(req, barcode, now, repo, crypto);
    var unsigned := Request(req.verb, req.path, req.headers - {"Authorization"});
    UnsignedTestRequestRejected(crypto, t, now, barcode);
    ServeDecides(unsigned, barcode, now, repo, crypto);
  }

  /** Without its `Authorization` header the test's request is rejected,
      whatever the clock says, for a time below the double range. */
  lemma UnsignedTestRequestRejected(crypto: Crypto, t: nat, now: int, barcode: string)
    ensures var req := TestRequest(crypto, t, barcode);
      var unsigned := Request(req.verb, req.path, req.headers - {"Authorization"});
      t < FloatLimit ==> HmacSignatureInvalid(unsigned, now, Resolver(Some(TestConfig)), crypto) == Success(true)
  {
    if t < FloatLimit {
      TestUserPassword();
      var req := TestRequest(crypto, t, barcode);
      var unsigned := Request(req.verb, req.path, req.headers - {"Authorization"});
      UnsignedTestHeaders(crypto, t, barcode);
      IssuedTimeExpiry(t, now);
      UnsignedRejected(unsigned, now, Resolver(Some(TestConfig)), crypto);
    }
  }

  /** The headers the test's request keeps once `Authorization` is dropped. */
  lemma UnsignedTestHeaders(crypto: Crypto, t: nat, barcode: string)
    ensures var req := TestRequest(crypto, t, barcode);
      var unsigned := Request(req.verb, req.path, req.headers - {"Authorization"});
      && Header(unsigned, AuthorizationHeader).None?
      && Header(unsigned, UserHeader) == Some("test-user")
      && Header(unsigned, TimeHeader) == Some(DecimalString(t))
  {
  }
}

=== FILE: service_factory.dfy ===
/** `ServiceFactory` and the module-level `INSTANCE` registry
    (src/product_detail_store/service_factory.py): which repositories the
    configuration selects, the memoised product repository, and the
    process-wide current factory. */
module ServiceFactory {
  import opened Common
  import opened Values
  import opened Strings
  import opened Config
  import opened ProductRepository
  import opened UserRepository

  const ProductsMockedPath: string := "repositories.products.mocked"
  const UsersMockedPath: string := "repositories.users.mocked"
  const UsersRecordsPath: string := "repositories.users.records"

  /** A three-key path written with dots splits back into its keys. */
  lemma ThreeKeyPath(path: string, a: string, b: string, c: string)
    requires path == a + "." + b + "." + c
    requires '.' !in a && '.' !in b && '.' !in c
    ensures Split(path, '.') == [a, b, c]
  {
    var keys := [a, b, c];
    assert forall i :: 0 <= i < |keys| ==> '.' !in keys[i];
    JoinThree(a, b, c, '.');
    SplitJoin(keys, '.');
  }

  /** The three configuration paths the factory reads, segment by segment. */
  lemma PathSegments()
    ensures Split(ProductsMockedPath, '.') == ["repositories", "products", "mocked"]
    ensures Split(UsersMockedPath, '.') == ["repositories", "users", "mocked"]
    ensures Split(UsersRecordsPath, '.') == ["repositories", "users", "records"]
  {
    ProductsMockedSegments();
    UsersMockedSegments();
    UsersRecordsSegments();
  }

  lemma ProductsMockedSegments()
    ensures Split(ProductsMockedPath, '.') == ["repositories", "products", "mocked"]
  {
    ThreeKeyPath(ProductsMockedPath, "repositories", "products", "mocked");
  }

  lemma UsersMockedSegments()
    ensures Split(UsersMockedPath, '.') == ["repositories", "users", "mocked"]
  {
    ThreeKeyPath(UsersMockedPath, "repositories", "users", "mocked");
  }

  lemma UsersRecordsSegments()
    ensures Split(UsersRecordsPath, '.') == ["repositories", "users", "records"]
  {
    ThreeKeyPath(UsersRecordsPath, "repositories", "users", "records");
  }

  /** Strict descent along three keys, unfolded. */
  lemma DescendThree(d: Value, a: string, b: string, c: string)
    ensures Descend(d, [a, b, c]) ==
      if !d.Dict? then NotADict
      else if a !in d.entries then Missing
      else Descend(d.entries[a], [b, c])
    ensures d.Dict? && a in d.entries ==>
      Descend(d.entries[a], [b, c]) ==
        var e := d.entries[a];
        if !e.Dict? then NotADict
        else if b !in e.entries then Missing
        else Descend(e.entries[b], [c])
  {
    assert [a, b, c][1..] == [b, c];
    assert [b, c][1..] == [c];
    assert [c][1..] == [];
  }

  /** Two three-key descents that differ only in the last key fail on a
      non-dictionary together: the last key is never looked up with `get`
      on a value of the wrong type. */
  lemma SharedPrefix(d: Value, a: string, b: string, c1: string, c2: string)
    ensures Descend(d, [a, b, c1]).NotADict? <==> Descend(d, [a, b, c2]).NotADict?
  {
    DescendThree(d, a, b, c1);
    DescendThree(d, a, b, c2);
    assert [c1][1..] == [] && [c2][1..] == [];
  }

  /** Whether `get_product_repository` builds an in-memory repository (true)
      or falls off the end and returns `None` (false). Because the flag is read
      with the default `True`, and `d or True` is never falsy, it always
      builds one: a configured `"mocked": False` cannot switch it off. The
      call raises only when a dictionary is expected on the way down to
      `mocked` and something else is found. */
  function ProductRepositoryMocked(config: Value): (r: Result<bool>)
    ensures r.Success? ==> r.value
    ensures r.Failure? <==> Descend(config, ["repositories", "products", "mocked"]).NotADict?
    ensures r.Failure? ==> r.error == AttributeError("get")
  {
    ProductsConfig(config);
    match GetConfig(config, ProductsMockedPath, Bool(true))
    case Success(mocked) => Success(Truthy(mocked))
    case Failure(e) => Failure(e)
  }

  /** The lookup `get_product_repository` makes, in terms of strict descent
      to the flag: it is truthy whenever it is read. */
  lemma ProductsConfig(config: Value)
    ensures var mocked := GetConfig(config, ProductsMockedPath, Bool(true));
      && (mocked.Success? ==> Truthy(mocked.value))
      && (mocked.Failure? <==> Descend(config, ["repositories", "products", "mocked"]).NotADict?)
      && (mocked.Failure? ==> mocked.error == AttributeError("get"))
  {
    ProductsMockedSegments();
    GetConfigSpec(config, ProductsMockedPath, Bool(true));
  }

  /** `get_users_repository()`: `None` stands for the implicit `return None`
      when the flag is falsy, which never happens for the same reason as for
      products. The records are the configured `repositories.users.records`
      when that value is present and truthy, and `{}` otherwise. */
  function GetUsersRepository(config: Value): (r: Result<Option<Repo>>)
    ensures r.Success? ==> r.value.Some?
    ensures r.Failure? <==> Descend(config, ["repositories", "users", "records"]).NotADict?
    ensures r.Failure? ==> r.error == AttributeError("get")
    ensures var l := Descend(config, ["repositories", "users", "records"]);
      r.Success? ==> r.value.value.records == (if l.Found? && Truthy(l.v) then l.v else EmptyDict)
  {
    UsersConfig(config);
    var mocked :- GetConfig(config, UsersMockedPath, Bool(true));
    if Truthy(mocked) then
      match GetConfig(config, UsersRecordsPath, EmptyDict)
      case Success(records) => Success(Some(InMemoryUserRepository(records)))
      case Failure(e) => Failure(e)
    else
      Success(None)
  }

  /** The two lookups `get_users_repository` makes, in terms of strict
      descent to the records: the flag is truthy whenever it is read, and
      both lookups raise together. */
  lemma UsersConfig(config: Value)
    ensures var l := Descend(config, ["repositories", "users", "records"]);
      var mocked := GetConfig(config, UsersMockedPath, Bool(true));
      var records := GetConfig(config, UsersRecordsPath, EmptyDict);
      && (mocked.Success? ==> Truthy(mocked.value))
      && (mocked.Failure? <==> l.NotADict?)
      && (mocked.Failure? ==> mocked.error == AttributeError("get"))
      && (records.Failure? <==> l.NotADict?)
      && (records.Success? ==> records.value == (if l.Found? && Truthy(l.v) then l.v else EmptyDict))
  {
    UsersMockedSegments();
    UsersRecordsSegments();
    GetConfigSpec(config, UsersMockedPath, Bool(true));
    GetConfigSpec(config, UsersRecordsPath, EmptyDict);
    SharedPrefix(config, "repositories", "users", "mocked", "records");
  }

  /** A factory: its configuration and the `lru_cache` entry of
      `get_product_repository`, empty until the first successful call. */
  class Factory {
    const config: Value
    var productRepositoryMemo: Option<InMemoryProductRepository?>

    /** The memo is filled only by a call that read the flag without
        raising, and never holds the `None` of a falsy flag, since the flag
        cannot be falsy. */
    predicate Valid()
      reads this
    {
      productRepositoryMemo.Some? ==>
        productRepositoryMemo.value != null && ProductRepositoryMocked(config).Success?
    }

    /** `ServiceFactory(config)`: the constructor also makes the new factory
        the current instance. */
    constructor(config: Value, registry: Registry)
      modifies registry
      ensures this.config == config
      ensures productRepositoryMemo == None && Valid()
      ensures registry.instance == this
    {
      this.config := config;
      productRepositoryMemo := None;
      new;
      registry.instance := this;
    }

    /** `get_product_repository()`, memoised per factory: the first successful
        call builds a fresh, empty in-memory repository and every later call
        returns that same object. A raising call caches nothing. */
    method GetProductRepository() returns (r: Result<InMemoryProductRepository?>)
      requires Valid()
      modifies this
      ensures Valid()
      ensures r.Success? ==> r.value != null
      ensures old(productRepositoryMemo).Some? ==>
                r == Success(old(productRepositoryMemo).value) && productRepositoryMemo == old(productRepositoryMemo)
      ensures old(productRepositoryMemo).None? && r.Success? ==>
                && r.value != null && fresh(r.value) && r.value.store == Empty
                && productRepositoryMemo == Some(r.value)
      ensures r.Failure? ==> productRepositoryMemo == None
      ensures r.Failure? <==> ProductRepositoryMocked(config).Failure?
      ensures r.Failure? ==> r.error == ProductRepositoryMocked(config).error
    {
      if productRepositoryMemo.Some? {
        return Success(productRepositoryMemo.value);
      }
      var mocked := ProductRepositoryMocked(config);
      if mocked.Failure? {
        return Failure(mocked.error);
      }
      var repo: InMemoryProductRepository? := null;
      if mocked.value {
        repo := new InMemoryProductRepository();
      }
      productRepositoryMemo := Some(repo);
      r := Success(repo);
    }
  }

  /** The module-level `INSTANCE` variable. */
  class Registry {
    var instance: Factory?

    /** At import time no factory is registered. */
    constructor()
      ensures instance == null
    {
      instance := null;
    }

    /** `set_instance(factory)`. */
    method SetInstance(f: Factory)
      modifies this
      ensures instance == f
    {
      instance := f;
    }

    /** `get_instance()`: the most recently registered factory, or an
        exception when none has been registered. */
    method GetInstance() returns (r: Result<Factory>)
      ensures r.Failure? <==> instance == null
      ensures r.Failure? ==> r.error == NotInitialized
      ensures r.Success? ==> r.value == instance
    {
      if instance == null {
        return Failure(NotInitialized);
      }
      return Success(instance);
    }
  }

  /** A fresh process has no factory, so `get_instance()` raises; constructing
      a factory registers it, with its configuration and an empty memo. */
  method Registration(config: Value) returns (before: Result<Factory>, after: Result<Factory>)
    ensures before == Failure(NotInitialized)
    ensures after.Success? && after.value.config == config
    ensures after.Success? && after.value.productRepositoryMemo == None
  {
    var registry := new Registry();
    before := registry.GetInstance();
    var f := new Factory(config, registry);
    after := registry.GetInstance();
  }

  /** The test's set-up: register a factory by constructing it, register it
      again with `set_instance`, and fetch its product repository twice; both
      fetches give the same object, so products the test adds through the
      first are seen by the endpoint through the second. */
  method MemoisedRepositoryShared(registry: Registry, config: Value)
    returns (r1: Result<InMemoryProductRepository?>, r2: Result<InMemoryProductRepository?>)
    modifies registry
    ensures registry.instance != null && registry.instance.config == config
    ensures r1.Success? ==> r2 == r1 && r1.value != null
  {
    var f := new Factory(config, registry);
    registry.SetInstance(f);
    r1 := f.GetProductRepository();
    r2 := f.GetProductRepository();
    if r1.Success? {
      assert r2 == r1;
    }
  }
}

=== FILE: strings.dfy ===
/** The string operations the service relies on: Python's `str.split` and
    `str.join` on a single-character separator, `str.isnumeric`, `int` and
    `str` on decimal numbers, and `str.upper`, restricted to ASCII. */
module Strings {

  // ---------------------------------------------------------------------------
  // split / join
  // ---------------------------------------------------------------------------

  /** Python's `s.split(sep)`: the maximal runs between separators, in order,
      empty runs included; the empty string splits into `[""]`. */
  function Split(s: string, sep: char): (parts: seq<string>)
    ensures |parts| >= 1
    ensures forall i :: 0 <= i < |parts| ==> sep !in parts[i]
    decreases |s|
  {
    if |s| == 0 then [""]
    else
      var rest := Split(s[1..], sep);
      if s[0] == sep then [""] + rest
      else [[s[0]] + rest[0]] + rest[1..]
  }

  /** Python's `sep.join(parts)`. */
  function Join(parts: seq<string>, sep: char): string
    decreases |parts|
  {
    if |parts| == 0 then ""
    else if |parts| == 1 then parts[0]
    else parts[0] + [sep] + Join(parts[1..], sep)
  }

  /** Joining the pieces of a split gives back the original string. */
  lemma {:induction false} JoinSplit(s: string, sep: char)
    ensures Join(Split(s, sep), sep) == s
    decreases |s|
  {
    if |s| > 0 {
      var rest := Split(s[1..], sep);
      JoinSplit(s[1..], sep);
      assert Join(rest, sep) == s[1..];
      if s[0] == sep {
        assert ([""] + rest)[1..] == rest;
      } else {
        var parts := [[s[0]] + rest[0]] + rest[1..];
        assert parts[1..] == rest[1..];
        if |rest| > 1 {
          assert Join(rest, sep) == rest[0] + [sep] + Join(rest[1..], sep);
        }
      }
    }
  }

  /** A string without separators splits into itself alone. */
  lemma {:induction false} SplitNoSeparator(a: string, sep: char)
    requires sep !in a
    ensures Split(a, sep) == [a]
    decreases |a|
  {
    if |a| > 0 {
      assert sep !in a[1..] by {
        forall i | 0 <= i < |a[1..]| ensures a[1..][i] != sep {
          assert a[1..][i] == a[i + 1];
        }
      }
      SplitNoSeparator(a[1..], sep);
      assert a[0] != sep;
      assert [a[0]] + a[1..] == a;
    }
  }

  /** Splitting a string that starts with a separator-free run `a` followed by
      the separator yields `a` first, then the pieces of the remainder. */
  lemma {:induction false} SplitPrefix(a: string, sep: char, t: string)
    requires sep !in a
    ensures Split(a + [sep] + t, sep) == [a] + Split(t, sep)
    decreases |a|
  {
    var s := a + [sep] + t;
    if |a| == 0 {
      assert s[0] == sep && s[1..] == t;
    } else {
      assert s[0] == a[0] && s[1..] == a[1..] + [sep] + t;
      assert sep !in a[1..] by {
        forall i | 0 <= i < |a[1..]| ensures a[1..][i] != sep {
          assert a[1..][i] == a[i + 1];
        }
      }
      SplitPrefix(a[1..], sep, t);
      assert [a[0]] + a[1..] == a;
    }
  }

  /** Splitting a join of separator-free pieces gives back the pieces. */
  lemma {:induction false} SplitJoin(parts: seq<string>, sep: char)
    requires |parts| >= 1
    requires forall i :: 0 <= i < |parts| ==> sep !in parts[i]
    ensures Split(Join(parts, sep), sep) == parts
    decreases |parts|
  {
    if |parts| == 1 {
      SplitNoSeparator(parts[0], sep);
    } else {
      SplitJoin(parts[1..], sep);
      SplitPrefix(parts[0], sep, Join(parts[1..], sep));
      assert [parts[0]] + parts[1..] == parts;
    }
  }

  /** `sep.join([a, b, c])`. */
  lemma JoinThree(a: string, b: string, c: string, sep: char)
    ensures Join([a, b, c], sep) == a + [sep] + b + [sep] + c
  {
    assert [a, b, c][1..] == [b, c];
    assert [b, c][1..] == [c];
    assert Join([b, c], sep) == b + [sep] + c;
  }

  // ---------------------------------------------------------------------------
  // decimal numbers
  // ---------------------------------------------------------------------------

  predicate IsDigit(c: char) {
    '0' <= c <= '9'
  }

  predicate AllDigits(s: string) {
    forall i :: 0 <= i < |s| ==> IsDigit(s[i])
  }

  /** `s.isnumeric()`, restricted to ASCII: non-empty and digits only. */
  predicate IsNumeric(s: string) {
    |s| > 0 && AllDigits(s)
  }

  function DigitValue(c: char): (d: nat)
    requires IsDigit(c)
    ensures d < 10
  {
    (c as int - '0' as int) as nat
  }

  function DigitChar(d: nat): (c: char)
    requires d < 10
    ensures IsDigit(c) && DigitValue(c) == d
  {
    ('0' as int + d) as char
  }

  /** `int(s)` on a string of decimal digits (leading zeros allowed). */
  function ParseDecimal(s: string): nat
    requires AllDigits(s)
    decreases |s|
  {
    if |s| == 0 then 0
    else ParseDecimal(s[..|s| - 1]) * 10 + DigitValue(s[|s| - 1])
  }

  /** `str(n)` for a non-negative integer: its decimal digits, most
      significant first, without leading zeros. */
  function DecimalString(n: nat): (s: string)
    ensures IsNumeric(s)
    ensures n > 0 ==> s[0] != '0'
    decreases n
  {
    if n < 10 then [DigitChar(n)]
    else DecimalString(n / 10) + [DigitChar(n % 10)]
  }

  /** `int(str(n)) == n`. */
  lemma {:induction false} ParseDecimalString(n: nat)
    ensures ParseDecimal(DecimalString(n)) == n
    decreases n
  {
    if n >= 10 {
      var s := DecimalString(n);
      assert s[..|s| - 1] == DecimalString(n / 10);
      ParseDecimalString(n / 10);
    }
  }

  function Pow2(k: nat): (p: nat)
    ensures p >= 1
  {
    if k == 0 then 1 else 2 * Pow2(k - 1)
  }

  /** A number below `2^k` has at most `k` decimal digits. */
  lemma {:induction false} DecimalLengthBelowPow2(n: nat, k: nat)
    requires k >= 1 && n < Pow2(k)
    ensures |DecimalString(n)| <= k
    decreases k
  {
    if n >= 10 {
      assert Pow2(1) == 2;
      assert n / 10 < Pow2(k - 1);
      DecimalLengthBelowPow2(n / 10, k - 1);
    }
  }

  // ---------------------------------------------------------------------------
  // upper case
  // ---------------------------------------------------------------------------

  predicate IsLower(c: char) {
    'a' <= c <= 'z'
  }

  function UpperChar(c: char): char {
    if IsLower(c) then (c as int - 32) as char else c
  }

  /** `s.upper()`, restricted to ASCII letters. */
  function Upper(s: string): (u: string)
    ensures |u| == |s|
    ensures forall i :: 0 <= i < |s| ==> u[i] == UpperChar(s[i])
    decreases |s|
  {
    if |s| == 0 then "" else [UpperChar(s[0])] + Upper(s[1..])
  }

  /** Upper-casing leaves no lower-case letter behind, is idempotent, and
      keeps every character that is not a lower-case letter. */
  lemma UpperProperties(s: string)
    ensures forall i :: 0 <= i < |Upper(s)| ==> !IsLower(Upper(s)[i])
    ensures Upper(Upper(s)) == Upper(s)
    ensures (forall i :: 0 <= i < |s| ==> !IsLower(s[i])) ==> Upper(s) == s
  {
  }
}

=== FILE: user_repository.dfy ===
/** `InMemoryUserRepository`
    (src/product_detail_store/repositories/in_memory/inmemory_user_repository.py):
    the credential resolver, a two-level lookup through the configured user
    records. */
module UserRepository {
  import opened Common
  import opened Values

  /** The repository holds the records dictionary it was constructed with,
      `{user_id: {"password": secret, ...}, ...}`. */
  datatype Repo = InMemoryUserRepository(records: Value)

  /** `get_password_for_user(user_id)`, that is
      `records.get(user_id, {}).get("password")`. It is the strict lookup of
      `[user_id, "password"]`: the stored password when both keys are present,
      `None` when either is absent (an unknown user is not an error), and
      `AttributeError` only when the records or the user's record is not a
      dictionary. The records are only read. */
  function GetPasswordForUser(repo: Repo, userId: string): (r: Result<Value>)
    ensures Descend(repo.records, [userId, "password"]).Found? ==>
              r == Success(Descend(repo.records, [userId, "password"]).v)
    ensures Descend(repo.records, [userId, "password"]).Missing? ==> r == Success(Null)
    ensures Descend(repo.records, [userId, "password"]).NotADict? ==>
              r == Failure(AttributeError("get"))
  {
    var record :- DictGet(repo.records, userId, EmptyDict);
    DescendPassword(repo.records, userId, record);
    DictGet(record, "password", Null)
  }

  /** Unfolds the two-key strict lookup, given the user's record as
      `records.get(user_id, {})` returns it. */
  lemma DescendPassword(records: Value, userId: string, record: Value)
    requires records.Dict?
    requires record == if userId in records.entries then records.entries[userId] else EmptyDict
    ensures userId !in records.entries ==> Descend(records, [userId, "password"]).Missing?
    ensures userId in records.entries ==>
              Descend(records, [userId, "password"]) == Descend(record, ["password"])
    ensures !record.Dict? ==> Descend(records, [userId, "password"]).NotADict?
    ensures record.Dict? && "password" !in record.entries ==> !Descend(records, [userId, "password"]).Found?
    ensures record.Dict? && "password" in record.entries ==>
              Descend(records, [userId, "password"]) == Found(record.entries["password"])
  {
    assert [userId, "password"][1..] == ["password"];
    assert ["password"][1..] == [];
  }

  /** The everyday cases: a user whose record has a password gets it back;
      an unknown user, or a known user without a password, gets `None`. */
  lemma PasswordCases(records: map<string, Value>, userId: string)
    ensures userId in records && records[userId].Dict? && "password" in records[userId].entries ==>
              GetPasswordForUser(InMemoryUserRepository(Dict(records)), userId)
                == Success(records[userId].entries["password"])
    ensures userId !in records ==>
              GetPasswordForUser(InMemoryUserRepository(Dict(records)), userId) == Success(Null)
    ensures userId in records && records[userId].Dict? && "password" !in records[userId].entries ==>
              GetPasswordForUser(InMemoryUserRepository(Dict(records)), userId) == Success(Null)
  {
  }
}

=== FILE: values.dfy ===
/** The dynamically typed values the service reads out of its configuration
    dictionary and writes into JSON response bodies, with Python's notion of
    truthiness and the two dictionary operations the code relies on. */
module Values {
  import opened Common

  /** A Python value as it appears in a configuration dictionary or a JSON body. */
  datatype Value =
    | Null                            // None
    | Bool(b: bool)
    | Int(i: int)
    | Float(f: real)                  // a float; no arithmetic is ever done on it
    | Str(s: string)
    | List(items: seq<Value>)
    | Dict(entries: map<string, Value>)

  const EmptyDict: Value := Dict(map[])

  /** Python's `bool(v)`: `None`, `False`, zero, and empty strings, lists and
      dictionaries are falsy; everything else is truthy. */
  predicate Truthy(v: Value) {
    match v
    case Null => false
    case Bool(b) => b
    case Int(i) => i != 0
    case Float(f) => f != 0.0
    case Str(s) => |s| > 0
    case List(items) => |items| > 0
    case Dict(entries) => |entries| > 0
  }

  /** Python's `d or default`: `d` when it is truthy, otherwise `default`.
      The result is truthy exactly when one of the two operands is, so a
      truthy default can never be overridden by a falsy value. */
  function Or(d: Value, default: Value): (r: Value)
    ensures Truthy(r) <==> Truthy(d) || Truthy(default)
    ensures r == d || r == default
    ensures Truthy(d) ==> r == d
    ensures !Truthy(d) ==> r == default
  {
    if Truthy(d) then d else default
  }

  /** Python's `d.get(key, default)`. Only a dictionary has a `get`
      attribute; on any other value the call raises `AttributeError`. */
  function DictGet(d: Value, key: string, default: Value): (r: Result<Value>)
    ensures r.Failure? <==> !d.Dict?
    ensures r.Failure? ==> r.error == AttributeError("get")
    ensures d.Dict? && key in d.entries ==> r == Success(d.entries[key])
    ensures d.Dict? && key !in d.entries ==> r == Success(default)
  {
    match d
    case Dict(entries) => Success(if key in entries then entries[key] else default)
    case _ => Failure(AttributeError("get"))
  }

  /** A dictionary literal `{k: v}` with one entry. */
  function Entry(key: string, v: Value): (r: Value)
    ensures r.Dict? && r.entries.Keys == {key} && r.entries[key] == v
    ensures Truthy(r)
  {
    Dict(map[key := v])
  }

  // ---------------------------------------------------------------------------
  // Reference definition: strict descent through nested dictionaries
  // ---------------------------------------------------------------------------

  /** Where a strict descent along a key path ends. */
  datatype Lookup =
    | Found(v: Value)   // every key was present
    | Missing           // some key was absent from a dictionary
    | NotADict          // a value on the way down was not a dictionary

  function Descend(d: Value, segments: seq<string>): Lookup
    decreases |segments|
  {
    if |segments| == 0 then Found(d)
    else if !d.Dict? then NotADict
    else if segments[0] !in d.entries then Missing
    else Descend(d.entries[segments[0]], segments[1..])
  }
}
